=== FILE: README.md ===
# Mini Pupper servo bus engine — a Dafny model

This project models the servo bus of the Mini Pupper quadruped robot in
Dafny. Twelve serial-bus servos share one half-duplex UART on the ESP32.
The firmware's `SERVO` engine is in `esp32/main/mini_pupper_servos.cpp`. It
has a power gate and a synchronous API. That API suspends the background
service and makes one request/acknowledge exchange per call. The engine
also keeps a cache of twelve servo records. An asynchronous API reads and
writes that cache. A background task broadcasts every goal position and
polls one servo's feedback per cycle, round-robin.

The model also covers two other parts:

- The serial console's servo commands in `esp32/main/mini_pupper_cmd.cpp`.
  These are the argument checks each handler makes, and the `servo-scan`
  loop.
- The Raspberry Pi side of the host link in
  `Python_Module/MangDang/mini_pupper/ESP32Interface.py`. That is the
  request builder (`compileMessage`), the byte-at-a-time reply parser
  (`parse`) and the word payloads of the servo commands.

Modules, one file each:

| module | file | content |
|---|---|---|
| `Wire` | `wire.dfy` | bytes, 16-bit words, signed reinterpretation, byte sums |
| `Frame` | `frame.dfy` | the servo frame `FF FF id len instr params chk`: encoder, validating decoder, round trips |
| `Uart` | `uart.dfy` | the port as an event trace (frames written, bytes read, flushes) plus a queue of reply chunks |
| `Servos` | `servos.dfy` | engine state, power gate, service switch, register transactions, the synchronous API |
| `AsyncApi` | `async_api.dfy` | the cache-only setters and getters |
| `Worker` | `worker.dfy` | the background service: sync write, feedback request and acknowledgement, the task loop |
| `Console` | `console.dfy` | the console handlers' argument checks and `servo-scan` |
| `HostProtocol` | `host_protocol.dfy` | the host's message builder, reply parser and servo payload words |

I/O is modelled as data:

- Every UART call appends an event to the port's trace.
- What the servos answer is the queue `incoming`. Each read takes the next
  chunk; a missing or short chunk is a timeout.
- GPIO, RTOS delays and the task scheduler are left out. One task cycle is
  one atomic step.
- The COBS-R codec on the host comes from an external package. It is a
  function parameter. Where a lemma needs it, its contract is stated as the
  predicate `HostProtocol.CobsCodec`.

## Model

| member | source | states |
|---|---|---|
| Frame.Checksum | esp32/main/mini_pupper_servos.cpp:839-844 | the check byte is the 8-bit complement of the body sum: body sum plus check byte is 0xFF modulo 256 |
| Frame.Payload | esp32/main/mini_pupper_servos.cpp:824-837 | the parameter bytes put in the frame are exactly the caller's, or that many zeros for a null pointer; `ping` and `recovery` pass the null pointer with length 0 |
| Frame.Encode | esp32/main/mini_pupper_servos.cpp:811-851 | a frame is 6 bytes longer than its parameters: two 0xFF, the address, the length byte (parameters + 2 for any frame that fits), the instruction, the parameters, the check byte |
| Frame.EncodeChecksum | esp32/main/mini_pupper_servos.cpp:839-844 | every written frame sums to 0xFF modulo 256 from the address through the check byte |
| Frame.Decode | esp32/main/mini_pupper_servos.cpp:853-892 | a reply is accepted iff it has exactly n+6 bytes, both header bytes, length byte n+2 and a matching checksum; the result then has n parameters |
| Frame.DecodeEncode | esp32/main/mini_pupper_servos.cpp:853-892 | the reply check accepts every frame the writer produces and returns its address, instruction byte and parameters |
| Frame.EncodeDecode | esp32/main/mini_pupper_servos.cpp:853-892 | every accepted reply is exactly the encoding of the fields extracted from it |
| Frame.DecodeRejectsCorruption | esp32/main/mini_pupper_servos.cpp:866-878 | changing any single byte of a valid frame from the address onwards makes the reply check fail |
| Servos.Boot | esp32/main/mini_pupper_servos.cpp:16-59 | the engine starts with the rail off, torque off, the service stopped, an empty port trace and twelve records for servos 1..12 centred at 512 |
| Servos.Disable | esp32/main/mini_pupper_servos.cpp:61-66 | power, torque and service flags all end false; the cache and the port are untouched |
| Servos.Enable | esp32/main/mini_pupper_servos.cpp:68-73 | power on, with torque and the service off; the cache and the port are untouched |
| Servos.EnableAsyncService | esp32/main/mini_pupper_servos.cpp:656-680 | unpowered or already in the requested mode: nothing changes; otherwise the service flag takes the requested value and unread input is discarded; a stopped-when-unpowered engine stays so |
| Servos.SendFrame | esp32/main/mini_pupper_servos.cpp:845-848 | unread input is discarded first, then exactly one frame goes on the wire; nothing is read |
| Servos.WriteRegisterByte | esp32/main/mini_pupper_servos.cpp:894-900 | one flush and one write frame `[reg, value]`; no reply is read |
| Servos.WriteRegisterWord | esp32/main/mini_pupper_servos.cpp:902-912 | one write frame whose parameters are the register and the word big-endian, so the frame's bytes 6-7 read back as the word |
| Servos.ReadRegisterByte | esp32/main/mini_pupper_servos.cpp:914-940 | broadcast is refused without traffic; otherwise a read of 1 byte is sent, one reply chunk is consumed, and a value exists iff that chunk is a valid success reply from the addressed servo, the value being its parameter |
| Servos.ReadRegisterWord | esp32/main/mini_pupper_servos.cpp:942-968 | as the byte read, for 2 bytes, the value being the big-endian word of the reply's parameters |
| Servos.Exchange | esp32/main/mini_pupper_servos.cpp:811-892 | one request/acknowledge exchange: flush, frame, read, flush; success iff the next chunk is a valid empty reply from the addressed servo with status 0 |
| Servos.UnicastCommand | esp32/main/mini_pupper_servos.cpp:75-131 | unpowered: failure, no effect; broadcast: service suspended, failure, no frame; else exactly one frame and success iff it was acknowledged; the cache is untouched |
| Servos.Ping | esp32/main/mini_pupper_servos.cpp:75-102 | unpowered fails untouched; broadcast fails with no frame on the wire; else one ping frame, one reply consumed, success iff the servo acknowledged |
| Servos.AwaitReply | esp32/main/mini_pupper_servos.cpp:853-892 | the read half of `reply_frame`: at most n+6 bytes of the next queued chunk are read, that whole chunk is consumed, a flush follows, and the reply is what the frame decoder makes of the bytes read; nothing else in the engine changes |
| Servos.Recovery | esp32/main/mini_pupper_servos.cpp:104-131 | as ping, with the recovery instruction: powered and unicast, one frame, exactly one reply chunk consumed, success iff acknowledged |
| Servos.SetPosition | esp32/main/mini_pupper_servos.cpp:201-228 | as ping, with one write of the goal-position word big-endian: exactly one reply chunk consumed, success iff acknowledged; the cached goal is not changed |
| Servos.EnableTorque | esp32/main/mini_pupper_servos.cpp:133-165 | powered: exactly one torque-enable write; broadcast succeeds at once with the flag set; unicast succeeds iff acknowledged, and the flag is set on success and kept otherwise; the service is suspended; a broadcast reads no reply, a unicast consumes one chunk |
| Servos.DisableTorque | esp32/main/mini_pupper_servos.cpp:167-199 | powered: exactly one torque-disable write; unicast clears the flag iff acknowledged; broadcast succeeds and, as written, sets the flag TRUE; the service is suspended; a broadcast reads no reply, a unicast consumes one chunk |
| Servos.DisableTorqueIntended | esp32/main/mini_pupper_servos.cpp:179-183 | the same traffic and status as the function as written, but a successful disable, broadcast included, leaves the flag false |
| Servos.BroadcastDisableReportsTorqueOn | esp32/main/mini_pupper_servos.cpp:179-183 | with torque off, a broadcast disable as written reports torque on; the intended one keeps it off |
| Servos.GetPosition | esp32/main/mini_pupper_servos.cpp:230-245 | a value iff powered, unicast and the reply is a valid 2-byte success reply from that servo; the value is the reply's big-endian word; the request reads 2 bytes at the present-position register |
| Servos.VelocityFromRaw | esp32/main/mini_pupper_servos.cpp:247-268 | bit 15 is a sign: raw values from 0x8000 up read as minus the low 15 bits, the rest as themselves |
| Servos.LoadFromRaw | esp32/main/mini_pupper_servos.cpp:270-291 | bit 10 is a sign: below 2048, raw values from 1024 up read as minus the low 10 bits |
| Servos.GetVelocity | esp32/main/mini_pupper_servos.cpp:247-268 | a value iff the 2-byte read succeeds; the value is the reply's word decoded as sign and magnitude with bit 15 |
| Servos.GetLoad | esp32/main/mini_pupper_servos.cpp:270-291 | a value iff the 2-byte read succeeds; the value is the reply's word decoded with bit 10 as sign |
| Servos.GetCurrent | esp32/main/mini_pupper_servos.cpp:353-374 | a value iff the 2-byte read succeeds; the value is decoded with bit 15 as sign, like the velocity |
| Servos.GetVoltage | esp32/main/mini_pupper_servos.cpp:293-311 | a value iff the 1-byte read of the voltage register succeeds; the value is the reply's parameter |
| Servos.GetTemperature | esp32/main/mini_pupper_servos.cpp:313-331 | a value iff the 1-byte read of the temperature register succeeds; the value is the reply's parameter |
| Servos.GetMove | esp32/main/mini_pupper_servos.cpp:333-351 | a value iff the 1-byte read of the moving register succeeds; the value is the reply's parameter |
| Servos.UnlockEeprom | esp32/main/mini_pupper_servos.cpp:376-400 | powered: the service is suspended, then exactly one write of 0 to the lock register (even to broadcast) is exchanged, the trace being suspend, flush, frame, read, flush; exactly one reply chunk is consumed; success iff acknowledged; unpowered: failure, no effect |
| Servos.LockEeprom | esp32/main/mini_pupper_servos.cpp:402-426 | powered: the service is suspended, then exactly one write of 1 to the lock register is exchanged, the trace being suspend, flush, frame, read, flush; exactly one reply chunk is consumed; success iff acknowledged; unpowered: failure, no effect |
| Servos.SetId | esp32/main/mini_pupper_servos.cpp:466-479 | powered: reports success whatever the servos answer, and consumes two reply chunks; unpowered: failure |
| Servos.SetIdFrames | esp32/main/mini_pupper_servos.cpp:466-479 | powered, exactly three frames go out in order: unlock at the old address, the ID write to the old address, lock at the new address |
| Servos.CheckPosition | esp32/main/mini_pupper_servos.cpp:524-559 | unpowered: the failure code read as `bool`, with nothing changed; powered: the service is suspended and the answer is always false |
| AsyncApi.SetPositionAsync | esp32/main/mini_pupper_servos.cpp:561-568 | only the addressed record's goal changes, and only for addresses 1..12; the service is started and no frame is sent |
| AsyncApi.SetPosition12Async | esp32/main/mini_pupper_servos.cpp:570-577 | every record's goal is replaced, in order, nothing else in the cache changes |
| AsyncApi.GetPositionAsync | esp32/main/mini_pupper_servos.cpp:579-588 | the cached present position of the addressed record, 0 outside 1..12; the cache is untouched |
| AsyncApi.GetVelocityAsync | esp32/main/mini_pupper_servos.cpp:590-599 | the cached velocity, 0 outside 1..12 |
| AsyncApi.GetLoadAsync | esp32/main/mini_pupper_servos.cpp:601-610 | the cached load, 0 outside 1..12 |
| AsyncApi.GetVoltageAsync | esp32/main/mini_pupper_servos.cpp:612-621 | as written: the cached LOAD, truncated to 8 bits, 0 outside 1..12 |
| AsyncApi.GetVoltageAsyncIntended | esp32/main/mini_pupper_servos.cpp:612-621 | the cached voltage, with the same effect on the engine as the function as written |
| AsyncApi.VoltageGetterReadsLoad | esp32/main/mini_pupper_servos.cpp:617-618 | a record with load 5 and voltage 120 reads back 5 as its voltage; the intended getter reads 120 |
| AsyncApi.GetTemperatureAsync | esp32/main/mini_pupper_servos.cpp:623-632 | the cached temperature, 0 outside 1..12 |
| AsyncApi.GetMoveAsync | esp32/main/mini_pupper_servos.cpp:634-643 | the cached moving flag, 0 outside 1..12 |
| AsyncApi.GetCurrentAsync | esp32/main/mini_pupper_servos.cpp:645-654 | the cached current, 0 outside 1..12 |
| AsyncApi.AsyncCallsSendNothing | esp32/main/mini_pupper_servos.cpp:561-654 | each of the two asynchronous setters and seven getters (and the corrected voltage getter) only extends the port and puts no frame on the wire |
| Worker.SyncPayload | esp32/main/mini_pupper_servos.cpp:700-705 | three bytes per servo, in order: its address, then its goal high byte, then its goal low byte |
| Worker.SyncWriteFrame | esp32/main/mini_pupper_servos.cpp:682-714 | the sync write is 44 bytes: broadcast address, length 40, sync-write instruction, goal register, 2 bytes each; slot i holds record i's address and its goal big-endian; it is the generic frame encoding of those parameters |
| Worker.SyncAllGoalPosition | esp32/main/mini_pupper_servos.cpp:682-714 | one frame carrying every cached goal next to its record's address; no flush, no read, the cache untouched |
| Worker.SetPositionAll | esp32/main/mini_pupper_servos.cpp:428-463 | suspends the service and writes exactly one sync frame to addresses 1..12 with the given goals, even without power |
| Worker.SyncFramesAgree | esp32/main/mini_pupper_servos.cpp:428-463 | with records for servos 1..12 holding the given goals, the background sync and `set_position_all` send the same frame |
| Worker.FeedbackRequest | esp32/main/mini_pupper_servos.cpp:716-740 | the feedback poll is the 8-byte generic read of 6 bytes from the present-position register |
| Worker.CmdFeedback | esp32/main/mini_pupper_servos.cpp:716-740 | the poll frame to the record's servo, then a flush; the cache untouched |
| Worker.FeedbackValidIsAccepted | esp32/main/mini_pupper_servos.cpp:750-766 | the feedback checks accept exactly the replies the generic reply check accepts as a 6-byte success reply from that servo |
| Worker.AckFeedback | esp32/main/mini_pupper_servos.cpp:742-785 | one chunk is read and flushed; a valid reply from the polled servo sets its position, velocity and load from the three big-endian words; no other field of that record changes; an invalid reply, and every other record, changes nothing |
| Worker.AckSkipsSignDecoding | esp32/main/mini_pupper_servos.cpp:769-779 | velocity raw 0x8005 is stored as -32763 by the feedback path while the synchronous getter decodes it as -5 |
| Worker.Cycle | esp32/main/mini_pupper_servos.cpp:787-809 | a cycle does nothing unless powered and running; otherwise it advances the cursor, writes exactly the sync frame and then the poll of the next record, consumes one chunk, and changes only the polled record's feedback |
| Worker.RoundRobinVisitsEach | esp32/main/mini_pupper_servos.cpp:800 | twelve consecutive cycles poll every record exactly once |
| Worker.WorkerFramesShape | esp32/main/mini_pupper_servos.cpp:796-802 | in n cycles frame 2j is the sync write and frame 2j+1 the poll of the j-th polled record |
| Worker.RunWorker | esp32/main/mini_pupper_servos.cpp:787-809 | n cycles advance the cursor by n modulo 12, keep addresses and goals, consume n chunks and put exactly a sync write and a poll per cycle on the wire |
| Worker.AsyncGoalReachesWire | esp32/main/mini_pupper_servos.cpp:561-568 | a goal set through the asynchronous API is in the very next sync write, in its record's slot, next to that record's address |
| Worker.FeedbackReachesGetters | esp32/main/mini_pupper_servos.cpp:742-785 | after a cycle reads a valid reply from servo k+1, the asynchronous getters return the position, velocity and load words it carried |
| Console.CheckTorqueAddress | esp32/main/mini_pupper_cmd.cpp:64-86 | the address is accepted iff it is in 0..12 or is broadcast, and then passes unchanged |
| Console.CheckBusAddress | esp32/main/mini_pupper_cmd.cpp:142-168 | accepted iff in 0..12 |
| Console.CheckCachedAddress | esp32/main/mini_pupper_cmd.cpp:809-829 | accepted iff in 1..12 |
| Console.CheckPosition | esp32/main/mini_pupper_cmd.cpp:297-327 | a position is accepted iff in 0..1023 |
| Console.DisableTorqueCommand | esp32/main/mini_pupper_cmd.cpp:64-86 | a disable call is made iff the address is 0..12 or broadcast, with that address |
| Console.EnableTorqueCommand | esp32/main/mini_pupper_cmd.cpp:103-125 | an enable call is made iff the address is 0..12 or broadcast, with that address |
| Console.IsTorqueEnabledCommand | esp32/main/mini_pupper_cmd.cpp:142-168 | the query is made iff the address is in 0..12; broadcast is refused |
| Console.SetPositionCommand | esp32/main/mini_pupper_cmd.cpp:297-327 | the call is made iff the address and the position both pass, with exactly those values |
| Console.SetPositionAsyncCommand | esp32/main/mini_pupper_cmd.cpp:728-758 | the same acceptance as the synchronous command, into the asynchronous setter |
| Console.Clamp | esp32/main/mini_pupper_cmd.cpp:352-358 | an in-range value is kept, any other becomes 512; the result is always at most 1023 |
| Console.SetPosition12Command | esp32/main/mini_pupper_cmd.cpp:344-361 | exactly twelve values are needed; none is rejected, every goal sent is at most 1023 and in-range values pass unchanged |
| Console.SetPosition12AsyncCommand | esp32/main/mini_pupper_cmd.cpp:776-793 | the same clamp into the asynchronous twelve-goal setter |
| Console.Position12StaysInRange | esp32/main/mini_pupper_cmd.cpp:344-361 | whatever the twelve arguments, every goal word in the frame `servo-setPosition12` causes is in 0..1023 |
| Console.SetIdCommand | esp32/main/mini_pupper_cmd.cpp:383-410 | the call is made iff both the old and the new address are in 0..12 |
| Console.ReadCommand | esp32/main/mini_pupper_cmd.cpp:427-453 | a synchronous read is made iff the address is in 0..12, repeated the loop count times, none when it is not positive |
| Console.ReadAsyncCommand | esp32/main/mini_pupper_cmd.cpp:809-901 | an asynchronous read is made iff the address is in 1..12 |
| Console.AsyncReadsHitTheCache | esp32/main/mini_pupper_cmd.cpp:809-901 | every asynchronous read the console lets through reads a cache record, never the default 0 |
| Console.PingFrames | esp32/main/mini_pupper_cmd.cpp:189-201 | after n pings the scan has sent n frames, the pings to addresses 1..n in that order: frame i is the ping to address i+1 |
| Console.RespondersMembers | esp32/main/mini_pupper_cmd.cpp:189-201 | an address is in the scan report iff it is among those scanned and was answered |
| Console.RespondersAscend | esp32/main/mini_pupper_cmd.cpp:189-201 | the scan report is strictly ascending |
| Console.ScanOne | esp32/main/mini_pupper_cmd.cpp:194-197 | one iteration of the scan loop keeps the loop's account: after address i, the report is the addresses among 1..i whose queued reply acknowledges them, ascending; powered, the pings to 1..i have gone out and i reply chunks are consumed; engine flags and cache are untouched |
| Console.Scan | esp32/main/mini_pupper_cmd.cpp:189-201 | addresses 1..12 are pinged in order; an address is reported iff powered and its queued reply acknowledges it; the report ascends; twelve ping frames go out and twelve chunks are consumed; nothing reaches the bus unpowered |
| HostProtocol.NextCi | Python_Module/MangDang/mini_pupper/ESP32Interface.py:42-47 | with no index requested the index is the previous one plus one, wrapping from 253 to 0, otherwise it is the requested one less one; the byte sent (index + 1) is never 0 |
| HostProtocol.HeaderByte | Python_Module/MangDang/mini_pupper/ESP32Interface.py:52 | the low seven bits are the command's, bit 7 is the acknowledge bit unless the command already sets it |
| HostProtocol.CheckByte | Python_Module/MangDang/mini_pupper/ESP32Interface.py:58-64 | the check byte brings the message's byte sum to a multiple of 256 |
| HostProtocol.CompileMessage | Python_Module/MangDang/mini_pupper/ESP32Interface.py:41-73 | the index becomes the previous one plus one modulo 254 (or the requested one less one), and it moves even when Python raises; a message exists iff every field fits a byte and the encoded tail is under 256 bytes; it is `0`, header, index+1, the tail's length, then the COBS-R encoding of everything from the code byte |
| HostProtocol.UnencodedLayout | Python_Module/MangDang/mini_pupper/ESP32Interface.py:49-64 | before encoding: the message sums to 0 modulo 256 and holds the zero, header, index, data length, code and data in order |
| HostProtocol.Step | Python_Module/MangDang/mini_pupper/ESP32Interface.py:75-150 | a zero byte starts a fresh packet from any state; other bytes extend `raw`; only the last expected encoded byte can raise or return to idle |
| HostProtocol.RunConsistent | Python_Module/MangDang/mini_pupper/ESP32Interface.py:75-150 | any run of bytes keeps `raw` in the shape its state promises: the header bytes, then the encoded bytes collected so far |
| HostProtocol.Countdown | Python_Module/MangDang/mini_pupper/ESP32Interface.py:114-116 | while more encoded bytes are expected, non-zero bytes are only collected and counted down |
| HostProtocol.LengthThenData | Python_Module/MangDang/mini_pupper/ESP32Interface.py:104-144 | after a non-zero length byte, the packet completes after exactly that many non-zero bytes and not before |
| HostProtocol.ParseFrame | Python_Module/MangDang/mini_pupper/ESP32Interface.py:75-150 | a complete packet parsed from any state yields its acknowledge bit, command, index and length, and the decoding of its encoded part after the four header bytes; Python raises iff that decoding is empty |
| HostProtocol.Payload | Python_Module/MangDang/mini_pupper/ESP32Interface.py:182 | `rawDecoded[5:-1]`: byte i of the payload is byte 5+i of the decoded message, up to but not including the check byte; empty for a message shorter than six bytes |
| HostProtocol.DecodeWords | Python_Module/MangDang/mini_pupper/ESP32Interface.py:181-186 | a payload of n bytes yields (n+1)/2 words |
| HostProtocol.DecodeWordsAt | Python_Module/MangDang/mini_pupper/ESP32Interface.py:181-186 | word i is byte 2i plus 256 times byte 2i+1, the last byte of an odd payload standing alone |
| HostProtocol.EncodeWords | Python_Module/MangDang/mini_pupper/ESP32Interface.py:228-232 | each word becomes its low byte then its high byte, in order |
| HostProtocol.WordsRoundTrip | Python_Module/MangDang/mini_pupper/ESP32Interface.py:181-186 | decoding the little-endian bytes of a word list gives the list back |
| HostProtocol.ServoPositionsData | Python_Module/MangDang/mini_pupper/ESP32Interface.py:228-232 | the payload exists iff there are at least twelve positions, each in 0..65535; it is 24 bytes that decode to the first twelve |
| HostProtocol.CompileThenParse | Python_Module/MangDang/mini_pupper/ESP32Interface.py:41-150 | a built message read back by the parser gives back the acknowledge bit, command, index byte, code, data and check byte |
| HostProtocol.DecodeServoResponse | Python_Module/MangDang/mini_pupper/ESP32Interface.py:181-186 | a decoded message of m ≥ 6 bytes yields (m-5)/2 words, none below six bytes; word i is byte 5+2i plus 256 times byte 6+2i, the high byte counting only before the check byte; its partner is ResponseRoundTrip |
| HostProtocol.ResponseRoundTrip | Python_Module/MangDang/mini_pupper/ESP32Interface.py:181-232 | a word list sent as little-endian data decodes back to the same list on the receiving side |

## Left out

- GPIO set-up, UART driver configuration, the task creation and RTOS delays in the constructor and the task loop: they are hardware and scheduling. One task cycle is one atomic step, and the interleaving of the task with the foreground API is not modelled.
- Timeouts and partial reads: a read takes up to the requested number of bytes from the next queued chunk. Which bytes arrive in which read is a parameter.
- The register map and the status codes come from a header that is not part of this model. The Feetech SCSCL register addresses are assumed. The proofs do not depend on their values. Success and failure are the `Status` values `Ok` and `Fail`.
- The initial contents of the twelve records come from the same missing header. `Servos.InitialCache` assumes addresses 1..12, goals at 512 and zero feedback.
- `rotate`, `setStartPos`, `setMidPos` and `setEndPos` (`esp32/main/mini_pupper_servos.cpp:481-522`): demonstration wrappers around `set_position` with fixed positions.
- The console's argument parsing errors and its printing: a handler is modelled as the call it makes, or `None` when it refuses.
- The console handlers name engine methods that the engine file does not define (`set_goal_position`, `is_torque_enable`, `get_speed`, `getSpeedAsync`). The handlers are therefore modelled as the validated `Command` they issue, not as calls into the engine. The exception is `servo-scan`, which uses `ping`.
- The console's loop-count reads print each value; `Console.ReadCommand` records only the repeat count.
- COBS-R itself: an external package, kept as a function parameter. Its decoding errors on malformed input are not modelled: the decoder is total.
- The parser's verbose printing, including the UTF-8 decoding of text packets, which can raise only when printing is on.
- Python returns the parser's packet object itself, so later bytes mutate what the caller holds. The model returns a snapshot.
- `encodedData`, which the parser resets but never fills.
- The random initial continuity index (`random.randrange(254)`): it is the `ci` parameter.
- Servos.CheckPosition: the unpowered answer `true` assumes the failure status code is non-zero; the code is defined in the header that is not part of this model.
- HostProtocol.ServoPositionsData: positions are integers. Python's `int()` also accepts floats and truncates them toward zero (-0.5 is sent as 0); that conversion is not modelled.
- The rest of `ESP32Interface`: sending, receiving, the IMU and the other command wrappers.
- Worker.WorkerFrames: its own contract states only the number of frames; `Worker.WorkerFramesShape` states which frame is which.
- HostProtocol.Step: its contract states the reset, the growth of `raw` and where a packet can end. The field-by-field effect of the header bytes is stated by `HostProtocol.ParseFrame`.

## Findings

| source | as written | input that shows it | evidently intended | confidence | as-written member | corrected member |
|---|---|---|---|---|---|---|
| esp32/main/mini_pupper_servos.cpp:179-183 | a broadcast `disable_torque` sets `isTorqueEnabled` to true | rail on, torque off, `disable_torque(0xFE)` | the flag reports torque off after a broadcast disable, as after a unicast one | high, not executed | Servos.DisableTorque, Servos.BroadcastDisableReportsTorqueOn | Servos.DisableTorqueIntended |
| esp32/main/mini_pupper_servos.cpp:617-618 | `getVoltageAsync` returns the cached present load | servo 1 with load 5 and voltage 120: `getVoltageAsync(1)` returns 5 | it returns the cached present voltage | high, not executed | AsyncApi.GetVoltageAsync, AsyncApi.VoltageGetterReadsLoad | AsyncApi.GetVoltageAsyncIntended |

Other behaviour of the source that the model keeps as written:

- `checkPosition`'s comparison is commented out. It answers `false` whenever the rail is on.
- `ping`, `recovery` and `set_position` suspend the service before they refuse a broadcast address.
- `setID` ignores the results of its three steps.
- `unlock_eeprom` and `lock_eeprom` send even to the broadcast address, and then wait for a reply.
- The feedback path stores the raw words without the sign decoding the synchronous getters apply (`Worker.AckSkipsSignDecoding`).
- `set_position_all` has no power check.

=== FILE: async_api.dfy ===
/**
 The asynchronous API: setters that only write goal positions into the cache
 and getters that only read the last observed values from it. Each call
 (re)starts the background service, which moves the goals to the bus and the
 feedback back into the cache. An address outside 1..12 changes nothing and
 reads as 0.
 */
module AsyncApi {
  import opened Wire
  import opened Uart
  import opened Servos

  /** The addresses that have a cache record. */
  predicate HasRecord(id: byte)
  {
    1 <= id <= 12
  }

  /**
   The engine differs from `e` at most by a started service: with power on
   the service runs afterwards, and one flush happens exactly when it was
   stopped before; without power nothing changes.
   */
  predicate ServiceStarted(e: Engine, r: Engine)
  {
    && r.isEnabled == e.isEnabled && r.isTorqueEnabled == e.isTorqueEnabled
    && (e.isEnabled ==> r.isSyncRunning)
    && (!e.isEnabled ==> r.isSyncRunning == e.isSyncRunning)
    && r.port.incoming == e.port.incoming
    && r.port.trace == e.port.trace + (if e.isEnabled && !e.isSyncRunning then [Flush] else [])
  }

  /** `setPositionAsync`: only the addressed servo's goal changes; no frame is sent. */
  function SetPositionAsync(e: Engine, id: byte, position: u16): (r: Engine)
    ensures HasRecord(id) ==> r.state[id - 1].goalPosition == position
    ensures forall i :: 0 <= i < 12 && i != id - 1 ==> r.state[i] == e.state[i]
    ensures HasRecord(id) ==> r.state[id - 1] == e.state[id - 1].(goalPosition := position)
    ensures ServiceStarted(e, r)
  {
    var e1 := if HasRecord(id) then e.(state := e.state[id - 1 := e.state[id - 1].(goalPosition := position)]) else e;
    EnableAsyncService(e1, true)
  }

  /** `setPosition12Async`: every goal replaced, in order; nothing else in the cache changes. */
  function SetPosition12Async(e: Engine, positions: seq<u16>): (r: Engine)
    requires |positions| == 12
    ensures forall i :: 0 <= i < 12 ==> r.state[i] == e.state[i].(goalPosition := positions[i])
    ensures ServiceStarted(e, r)
  {
    var goals := seq(12, i requires 0 <= i < 12 => e.state[i].(goalPosition := positions[i]));
    EnableAsyncService(e.(state := goals), true)
  }

  /** `getPositionAsync`. */
  function GetPositionAsync(e: Engine, id: byte): (r: (Engine, u16))
    ensures r.1 == if HasRecord(id) then e.state[id - 1].presentPosition else 0
    ensures r.0.state == e.state && ServiceStarted(e, r.0)
  {
    var e1 := EnableAsyncService(e, true);
    (e1, if HasRecord(id) then e1.state[id - 1].presentPosition else 0)
  }

  /** `getVelocityAsync`. */
  function GetVelocityAsync(e: Engine, id: byte): (r: (Engine, s16))
    ensures r.1 == if HasRecord(id) then e.state[id - 1].presentVelocity else 0
    ensures r.0.state == e.state && ServiceStarted(e, r.0)
  {
    var e1 := EnableAsyncService(e, true);
    (e1, if HasRecord(id) then e1.state[id - 1].presentVelocity else 0)
  }

  /** `getLoadAsync`. */
  function GetLoadAsync(e: Engine, id: byte): (r: (Engine, s16))
    ensures r.1 == if HasRecord(id) then e.state[id - 1].presentLoad else 0
    ensures r.0.state == e.state && ServiceStarted(e, r.0)
  {
    var e1 := EnableAsyncService(e, true);
    (e1, if HasRecord(id) then e1.state[id - 1].presentLoad else 0)
  }

  /**
   `getVoltageAsync` as written: it returns the cached LOAD, converted to the
   `u8` return type (its value modulo 256).
   */
  function GetVoltageAsync(e: Engine, id: byte): (r: (Engine, byte))
    ensures r.1 == if HasRecord(id) then e.state[id - 1].presentLoad % 0x100 else 0
    ensures r.0.state == e.state && ServiceStarted(e, r.0)
  {
    var e1 := EnableAsyncService(e, true);
    (e1, if HasRecord(id) then e1.state[id - 1].presentLoad % 0x100 else 0)
  }

  /** `getVoltageAsync` as evidently intended: the cached voltage. */
  function GetVoltageAsyncIntended(e: Engine, id: byte): (r: (Engine, byte))
    ensures r.1 == if HasRecord(id) then e.state[id - 1].presentVoltage else 0
    ensures r.0 == GetVoltageAsync(e, id).0
  {
    var e1 := EnableAsyncService(e, true);
    (e1, if HasRecord(id) then e1.state[id - 1].presentVoltage else 0)
  }

  /** A cache in which servo 1 reports load 5 and voltage 120 reads back 5 as its "voltage". */
  lemma VoltageGetterReadsLoad(e: Engine)
    requires e.state[0].presentLoad == 5 && e.state[0].presentVoltage == 120
    ensures GetVoltageAsync(e, 1).1 == 5 != e.state[0].presentVoltage
    ensures GetVoltageAsyncIntended(e, 1).1 == 120
  {
  }

  /** `getTemperatureAsync`. */
  function GetTemperatureAsync(e: Engine, id: byte): (r: (Engine, byte))
    ensures r.1 == if HasRecord(id) then e.state[id - 1].presentTemperature else 0
    ensures r.0.state == e.state && ServiceStarted(e, r.0)
  {
    var e1 := EnableAsyncService(e, true);
    (e1, if HasRecord(id) then e1.state[id - 1].presentTemperature else 0)
  }

  /** `getMoveAsync`. */
  function GetMoveAsync(e: Engine, id: byte): (r: (Engine, byte))
    ensures r.1 == if HasRecord(id) then e.state[id - 1].presentMove else 0
    ensures r.0.state == e.state && ServiceStarted(e, r.0)
  {
    var e1 := EnableAsyncService(e, true);
    (e1, if HasRecord(id) then e1.state[id - 1].presentMove else 0)
  }

  /** `getCurrentAsync`. */
  function GetCurrentAsync(e: Engine, id: byte): (r: (Engine, s16))
    ensures r.1 == if HasRecord(id) then e.state[id - 1].presentCurrent else 0
    ensures r.0.state == e.state && ServiceStarted(e, r.0)
  {
    var e1 := EnableAsyncService(e, true);
    (e1, if HasRecord(id) then e1.state[id - 1].presentCurrent else 0)
  }

  /** The port only grew, and no frame was written on it. */
  predicate SendsNothing(e: Engine, r: Engine)
  {
    Extends(e.port, r.port) && Frames(Since(e.port, r.port)) == []
  }

  /** Starting the service at most flushes the receive buffer. */
  lemma StartSendsNothing(e: Engine, r: Engine)
    requires ServiceStarted(e, r)
    ensures SendsNothing(e, r)
  {
    assert Since(e.port, r.port) == [] || Since(e.port, r.port) == [Flush];
    assert [Flush][1..] == [];
  }

  /** The asynchronous API never sends a frame: at most it flushes the receive buffer. */
  lemma AsyncCallsSendNothing(e: Engine, id: byte, position: u16, positions: seq<u16>)
    requires |positions| == 12
    ensures SendsNothing(e, SetPositionAsync(e, id, position))
    ensures SendsNothing(e, SetPosition12Async(e, positions))
    ensures SendsNothing(e, GetPositionAsync(e, id).0)
    ensures SendsNothing(e, GetVelocityAsync(e, id).0)
    ensures SendsNothing(e, GetLoadAsync(e, id).0)
    ensures SendsNothing(e, GetVoltageAsync(e, id).0)
    ensures SendsNothing(e, GetVoltageAsyncIntended(e, id).0)
    ensures SendsNothing(e, GetTemperatureAsync(e, id).0)
    ensures SendsNothing(e, GetMoveAsync(e, id).0)
    ensures SendsNothing(e, GetCurrentAsync(e, id).0)
  {
    StartSendsNothing(e, SetPositionAsync(e, id, position));
    StartSendsNothing(e, SetPosition12Async(e, positions));
    StartSendsNothing(e, GetPositionAsync(e, id).0);
    StartSendsNothing(e, GetVelocityAsync(e, id).0);
    StartSendsNothing(e, GetLoadAsync(e, id).0);
    StartSendsNothing(e, GetVoltageAsync(e, id).0);
    StartSendsNothing(e, GetTemperatureAsync(e, id).0);
    StartSendsNothing(e, GetMoveAsync(e, id).0);
    StartSendsNothing(e, GetCurrentAsync(e, id).0);
  }
}

=== FILE: console.dfy ===
/**
 The serial console's servo commands: the argument checks each handler makes
 before it calls into the engine, and the scan command, which pings every
 address of the leg bus in turn.

 A handler yields the call it would make as a `Command`, or `None` when it
 prints an error and makes no call. Arguments arrive as the `int`s the
 argument parser produced; the calls take them as `u8`/`u16`.
 */
module Console {
  import opened Wire
  import opened Frame
  import opened Uart
  import Servos
  import Worker
  import AsyncApi

  /** The register group a synchronous or asynchronous read command reports. */
  datatype Field = Position | Speed | Load | Voltage | Temperature | Move | Current

  /** The engine call a console command makes. */
  datatype Command =
    | DisableTorque(id: byte)
    | EnableTorque(id: byte)
    | IsTorqueEnabled(id: byte)
    | SetGoalPosition(id: byte, position: u16)
    | SetPositionAll(positions: seq<u16>)
    | SetId(id: byte, newId: byte)
    | Read(field: Field, id: byte, times: nat)
    | SetPositionAsync(id: byte, position: u16)
    | SetPosition12Async(positions: seq<u16>)
    | ReadAsync(field: Field, id: byte)

  /** Addresses the torque and position commands accept: the twelve servos, 0, or broadcast. */
  predicate TorqueAddress(id: int)
  {
    0 <= id <= 12 || id == Frame.BROADCAST_ID
  }

  /** Addresses the synchronous queries and `setID` accept: 0..12, never broadcast. */
  predicate BusAddress(id: int)
  {
    0 <= id <= 12
  }

  /** Addresses the asynchronous queries accept: exactly those with a cache record. */
  predicate CachedAddress(id: int)
  {
    1 <= id <= 12
  }

  /** Goal positions a single-servo command accepts. */
  predicate ValidPosition(pos: int)
  {
    0 <= pos <= 1023
  }

  /** `(u8)` and `(u16)` conversions of an `int`. */
  function ToU8(x: int): byte { x % 0x100 }
  function ToU16(x: int): u16 { x % 0x1_0000 }

  /** The address check shared by the torque and position commands: negative first, then above 12 unless broadcast. */
  function CheckTorqueAddress(id: int): (r: Option<byte>)
    ensures r.Some? <==> TorqueAddress(id)
    ensures r.Some? ==> r.value == id
  {
    if id < 0 then None
    else if id > 12 && id != 254 then None
    else Some(ToU8(id))
  }

  /** The address check of the synchronous queries and `setID`. */
  function CheckBusAddress(id: int): (r: Option<byte>)
    ensures r.Some? <==> BusAddress(id)
    ensures r.Some? ==> r.value == id
  {
    if id < 0 then None
    else if id > 12 then None
    else Some(ToU8(id))
  }

  /** The address check of the asynchronous queries. */
  function CheckCachedAddress(id: int): (r: Option<byte>)
    ensures r.Some? <==> CachedAddress(id)
    ensures r.Some? ==> r.value == id
  {
    if id <= 0 then None
    else if id > 12 then None
    else Some(ToU8(id))
  }

  /** The position check of `setPosition` and `setPositionAsync`. */
  function CheckPosition(pos: int): (r: Option<u16>)
    ensures r.Some? <==> ValidPosition(pos)
    ensures r.Some? ==> r.value == pos
  {
    if pos < 0 || pos > 1023 then None else Some(ToU16(pos))
  }

  /** `servo-disableTorque --id n`. */
  function DisableTorqueCommand(id: int): (r: Option<Command>)
    ensures r.Some? <==> TorqueAddress(id)
    ensures r.Some? ==> r.value.DisableTorque? && r.value.id == id
  {
    var a := CheckTorqueAddress(id);
    if a.None? then None else Some(DisableTorque(a.value))
  }

  /** `servo-enableTorque --id n`. */
  function EnableTorqueCommand(id: int): (r: Option<Command>)
    ensures r.Some? <==> TorqueAddress(id)
    ensures r.Some? ==> r.value.EnableTorque? && r.value.id == id
  {
    var a := CheckTorqueAddress(id);
    if a.None? then None else Some(EnableTorque(a.value))
  }

  /** `servo-isTorqueEnable --id n`: unlike the switches, broadcast is refused. */
  function IsTorqueEnabledCommand(id: int): (r: Option<Command>)
    ensures r.Some? <==> BusAddress(id)
    ensures r.Some? ==> r.value.IsTorqueEnabled? && r.value.id == id
  {
    var a := CheckBusAddress(id);
    if a.None? then None else Some(IsTorqueEnabled(a.value))
  }

  /** `servo-setPosition --id n --pos p`: the address is checked before the position. */
  function SetPositionCommand(id: int, pos: int): (r: Option<Command>)
    ensures r.Some? <==> TorqueAddress(id) && ValidPosition(pos)
    ensures r.Some? ==> r.value == SetGoalPosition(id, pos)
  {
    var a := CheckTorqueAddress(id);
    if a.None? then None
    else
      var p := CheckPosition(pos);
      if p.None? then None else Some(SetGoalPosition(a.value, p.value))
  }

  /** `servo-setPositionAsync --id n --pos p`: the same checks as `setPosition`. */
  function SetPositionAsyncCommand(id: int, pos: int): (r: Option<Command>)
    ensures r.Some? <==> TorqueAddress(id) && ValidPosition(pos)
    ensures r.Some? ==> r.value == SetPositionAsync(id, pos)
  {
    var a := CheckTorqueAddress(id);
    if a.None? then None
    else
      var p := CheckPosition(pos);
      if p.None? then None else Some(SetPositionAsync(a.value, p.value))
  }

  /** The replacement `setPosition12` makes for one value: kept if in 0..1023, else the centre. */
  function Clamp(v: int): (p: u16)
    ensures p <= 1023
    ensures 0 <= v < 1024 ==> p == v
    ensures !(0 <= v < 1024) ==> p == Servos.CENTRE
  {
    if 0 <= v && v < 1024 then ToU16(v) else 512
  }

  /** Every value clamped, in order. */
  function ClampAll(values: seq<int>): (ps: seq<u16>)
    ensures |ps| == |values|
    ensures forall i :: 0 <= i < |values| ==> ps[i] == Clamp(values[i])
  {
    seq(|values|, i requires 0 <= i < |values| => Clamp(values[i]))
  }

  /** `servo-setPosition12 p1 .. p12`: exactly twelve values; never rejected, but clamped. */
  function SetPosition12Command(values: seq<int>): (r: Option<Command>)
    ensures r.Some? <==> |values| == 12
    ensures r.Some? ==> r.value.SetPositionAll? && |r.value.positions| == 12
    ensures r.Some? ==> forall i :: 0 <= i < 12 ==> r.value.positions[i] <= 1023
    ensures r.Some? ==> forall i :: 0 <= i < 12 && ValidPosition(values[i]) ==> r.value.positions[i] == values[i]
  {
    if |values| != 12 then None else Some(SetPositionAll(ClampAll(values)))
  }

  /** `servo-setPosition12Async p1 .. p12`: the same clamp, into the cache. */
  function SetPosition12AsyncCommand(values: seq<int>): (r: Option<Command>)
    ensures r.Some? <==> |values| == 12
    ensures r.Some? ==> r.value.SetPosition12Async? && |r.value.positions| == 12
    ensures r.Some? ==> forall i :: 0 <= i < 12 ==> r.value.positions[i] <= 1023
    ensures r.Some? ==> forall i :: 0 <= i < 12 && ValidPosition(values[i]) ==> r.value.positions[i] == values[i]
  {
    if |values| != 12 then None else Some(SetPosition12Async(ClampAll(values)))
  }

  /** `servo-setID --id n --newid m`: both addresses in 0..12. */
  function SetIdCommand(id: int, newId: int): (r: Option<Command>)
    ensures r.Some? <==> BusAddress(id) && BusAddress(newId)
    ensures r.Some? ==> r.value == SetId(id, newId)
  {
    var a := CheckBusAddress(id);
    if a.None? then None
    else if newId < 0 || newId > 12 then None
    else Some(SetId(a.value, ToU8(newId)))
  }

  /** `servo-getPosition`, `-getSpeed`, ... `--id n --loop k`: `k` reads, none when `k` is not positive. */
  function ReadCommand(field: Field, id: int, loop: int): (r: Option<Command>)
    ensures r.Some? <==> BusAddress(id)
    ensures r.Some? ==> r.value == Read(field, id, if loop > 0 then loop else 0)
  {
    var a := CheckBusAddress(id);
    if a.None? then None else Some(Read(field, a.value, if loop > 0 then loop else 0))
  }

  /** `servo-getPositionAsync`, `-getSpeedAsync`, `-getLoadAsync --id n`. */
  function ReadAsyncCommand(field: Field, id: int): (r: Option<Command>)
    requires field == Position || field == Speed || field == Load
    ensures r.Some? <==> CachedAddress(id)
    ensures r.Some? ==> r.value == ReadAsync(field, id)
  {
    var a := CheckCachedAddress(id);
    if a.None? then None else Some(ReadAsync(field, a.value))
  }

  /** Every asynchronous read the console lets through hits a cache record: it never reads the default 0. */
  lemma AsyncReadsHitTheCache(field: Field, id: int)
    requires field == Position || field == Speed || field == Load
    requires ReadAsyncCommand(field, id).Some?
    ensures AsyncApi.HasRecord(ReadAsyncCommand(field, id).value.id)
  {
  }

  /**
   The goal words `servo-setPosition12` puts on the wire are all in 0..1023,
   whatever the twelve arguments were.
   */
  lemma Position12StaysInRange(e: Servos.Engine, values: seq<int>)
    requires |values| == 12
    ensures var positions := SetPosition12Command(values).value.positions;
      var f := Frames(Since(e.port, Worker.SetPositionAll(e, positions).port))[0];
      forall i :: 0 <= i < 12 ==> Word(f[8 + 3 * i], f[9 + 3 * i]) <= 1023
  {
    var positions := SetPosition12Command(values).value.positions;
    var f := Worker.SyncWriteFrame(Worker.STATIC_IDS, positions);
    assert Frames(Since(e.port, Worker.SetPositionAll(e, positions).port))[0] == f;
    forall i | 0 <= i < 12
      ensures Word(f[8 + 3 * i], f[9 + 3 * i]) <= 1023
    {
      assert Word(f[8 + 3 * i], f[9 + 3 * i]) == positions[i];
    }
  }

  /** The frames of a powered scan after pinging addresses 1..n: frame `i` is the ping to address `i + 1`. */
  function PingFrames(n: nat): (fs: seq<seq<byte>>)
    requires n <= 12
    ensures |fs| == n
    ensures forall i :: 0 <= i < n ==> fs[i] == Encode(i + 1, INST_PING, [])
  {
    if n == 0 then [] else PingFrames(n - 1) + [Encode(n, INST_PING, [])]
  }

  /** The highest address `servo-scan` pings. */
  const SCAN_TOP: nat := 12

  /** Whether address `id` answers a scan's ping: power is on and the `id`-th queued chunk is a valid acknowledgement from `id`. */
  predicate Answered(e: Servos.Engine, id: byte)
    requires 1 <= id <= 12
  {
    e.isEnabled && Servos.Accepted(Chunk(e.port.incoming, id - 1), id, 0)
  }

  /** For each address 1..12, whether a scan sees its ping answered: power on and a valid acknowledgement from it. */
  function Answers(e: Servos.Engine): (a: seq<bool>)
    ensures |a| == 12
  {
    seq(12, i requires 0 <= i < 12 => Answered(e, i + 1))
  }

  /** The addresses among 1..n whose ping was answered, in ascending order. */
  function Responders(answers: seq<bool>, n: nat): seq<byte>
    requires n <= |answers| && n <= 12
  {
    if n == 0 then []
    else Responders(answers, n - 1) + (if answers[n - 1] then [n] else [])
  }

  /** An address is reported iff it is one of 1..n and was answered. */
  lemma {:induction false} RespondersMembers(answers: seq<bool>, n: nat)
    requires n <= |answers| && n <= 12
    ensures forall id :: id in Responders(answers, n) <==> 1 <= id <= n && answers[id - 1]
  {
    if n > 0 {
      RespondersMembers(answers, n - 1);
      var prev := Responders(answers, n - 1);
      var tail: seq<byte> := if answers[n - 1] then [n] else [];
      assert Responders(answers, n) == prev + tail;
      forall id
        ensures id in prev + tail <==> 1 <= id <= n && answers[id - 1]
      {
        assert id in prev + tail <==> id in prev || id in tail;
      }
    }
  }

  /** Reports strictly ascend and stay within 1..n. */
  lemma {:induction false} RespondersAscend(answers: seq<bool>, n: nat)
    requires n <= |answers| && n <= 12
    ensures forall a :: 0 <= a < |Responders(answers, n)| ==> 1 <= Responders(answers, n)[a] <= n
    ensures forall a, b :: 0 <= a < b < |Responders(answers, n)| ==> Responders(answers, n)[a] < Responders(answers, n)[b]
  {
    if n > 0 {
      RespondersAscend(answers, n - 1);
      var prev := Responders(answers, n - 1);
      var tail: seq<byte> := if answers[n - 1] then [n] else [];
      assert Responders(answers, n) == prev + tail;
    }
  }

  /** Nothing answered, nothing reported. */
  lemma {:induction false} RespondersNone(answers: seq<bool>, n: nat)
    requires n <= |answers| && n <= 12
    requires forall i :: 0 <= i < n ==> !answers[i]
    ensures Responders(answers, n) == []
  {
    if n > 0 {
      RespondersNone(answers, n - 1);
    }
  }

  /** The scan loop's state after pinging addresses 1..n. */
  ghost predicate Scanned(e: Servos.Engine, n: nat, r: Servos.Engine, found: seq<byte>)
    requires n <= 12
  {
    && (!e.isEnabled ==> r == e)
    && r.isEnabled == e.isEnabled && r.isTorqueEnabled == e.isTorqueEnabled && r.state == e.state
    && (e.isEnabled && n > 0 ==> !r.isSyncRunning)
    && Extends(e.port, r.port)
    && (e.isEnabled ==> r.port.incoming == Drop(e.port.incoming, n))
    && Frames(Since(e.port, r.port)) == (if e.isEnabled then PingFrames(n) else [])
    && found == Responders(Answers(e), n)
  }

  /**
   `servo-scan`: ping addresses 1..12 in order and report those that answer.
   Each ping consumes one reply chunk; without power every ping fails and
   nothing reaches the bus.
   */
  method Scan(e: Servos.Engine) returns (r: Servos.Engine, found: seq<byte>)
    ensures forall id :: id in found <==> 1 <= id <= 12 && Answered(e, id)
    ensures forall a, b :: 0 <= a < b < |found| ==> found[a] < found[b]
    ensures !e.isEnabled ==> r == e && found == []
    ensures r.isEnabled == e.isEnabled && r.isTorqueEnabled == e.isTorqueEnabled && r.state == e.state
    ensures Extends(e.port, r.port)
    ensures Frames(Since(e.port, r.port)) == (if e.isEnabled then PingFrames(SCAN_TOP) else [])
    ensures e.isEnabled ==> r.port.incoming == Drop(e.port.incoming, SCAN_TOP)
  {
    r, found := e, [];
    var i: byte := 1;
    assert Since(e.port, r.port) == [];
    while i < 13
      invariant 1 <= i <= 13
      invariant Scanned(e, i - 1, r, found)
    {
      r, found := ScanOne(e, i, r, found);
      i := i + 1;
    }
    ScanReport(e, found);
  }

  /** What the full list of responders says in terms of the queued replies. */
  lemma ScanReport(e: Servos.Engine, found: seq<byte>)
    requires found == Responders(Answers(e), SCAN_TOP)
    ensures forall id :: id in found <==> 1 <= id <= 12 && Answered(e, id)
    ensures forall a, b :: 0 <= a < b < |found| ==> found[a] < found[b]
    ensures !e.isEnabled ==> found == []
  {
    var answers := Answers(e);
    RespondersMembers(answers, SCAN_TOP);
    RespondersAscend(answers, SCAN_TOP);
    if !e.isEnabled {
      RespondersNone(answers, SCAN_TOP);
    }
    forall id
      ensures id in found <==>
        1 <= id <= 12 && Answered(e, id)
    {
      if 1 <= id <= 12 {
        assert answers[id - 1] == Answered(e, id);
      }
    }
  }

  /** One ping of the scan: address `i` is added to the report exactly when its ping succeeds. */
  method ScanOne(e: Servos.Engine, i: byte, r: Servos.Engine, found: seq<byte>) returns (r': Servos.Engine, found': seq<byte>)
    requires 1 <= i <= 12 && Scanned(e, i - 1, r, found)
    ensures Scanned(e, i, r', found')
  {
    if e.isEnabled {
      ScanStepPowered(e, i, r, found);
    } else {
      assert Since(e.port, r.port) == [];
    }
    var outcome := Servos.Ping(r, i);
    r', found' := outcome.engine, if outcome.status == Servos.Ok then found + [i] else found;
  }

  /** The powered case of `ScanOne`: the ping goes out, consumes one chunk and is judged on it. */
  lemma ScanStepPowered(e: Servos.Engine, i: byte, r: Servos.Engine, found: seq<byte>)
    requires 1 <= i <= 12 && e.isEnabled && Scanned(e, i - 1, r, found)
    ensures var outcome := Servos.Ping(r, i);
      Scanned(e, i, outcome.engine, if outcome.status == Servos.Ok then found + [i] else found)
  {
    PingAnswered(e, i, r, found);
    PingTraffic(e, i, r, found);
    var answers := Answers(e);
    assert Responders(answers, i) == found + (if answers[i - 1] then [i] else []);
  }

  /** The powered ping adds its frame to the scan's frames and consumes the next chunk. */
  lemma PingTraffic(e: Servos.Engine, i: byte, r: Servos.Engine, found: seq<byte>)
    requires 1 <= i <= 12 && e.isEnabled && Scanned(e, i - 1, r, found)
    ensures var p := Servos.Ping(r, i).engine.port;
      && Extends(e.port, p)
      && p.incoming == Drop(e.port.incoming, i)
      && Frames(Since(e.port, p)) == PingFrames(i)
  {
    var p := Servos.Ping(r, i).engine.port;
    SinceSplit(e.port, r.port, p);
    FramesAppend(Since(e.port, r.port), Since(r.port, p));
    DropDrop(e.port.incoming, i - 1);
  }

  /** Mid-scan, ping `i` succeeds exactly when the `i`-th queued chunk acknowledges it. */
  lemma PingAnswered(e: Servos.Engine, i: byte, r: Servos.Engine, found: seq<byte>)
    requires 1 <= i <= 12 && e.isEnabled && Scanned(e, i - 1, r, found)
    ensures Servos.Ping(r, i).status == Servos.Ok <==> Answers(e)[i - 1]
  {
    assert Chunk(r.port.incoming, 0) == Chunk(e.port.incoming, i - 1);
    assert Pending(r.port) == Chunk(e.port.incoming, i - 1);
  }
}

=== FILE: frame.dfy ===
/**
 The servo bus frame codec: `FF FF id len instr/status params... chk`, where
 `len` counts the instruction (or status) byte, the parameters and the
 checksum, and `chk` is the bitwise complement of the byte sum from `id`
 through the last parameter.
 */
module Frame {
  import opened Wire

  const HEADER: byte := 0xFF
  /** The broadcast address: every servo obeys, none replies. */
  const BROADCAST_ID: byte := 0xFE

  const INST_PING: byte := 0x01
  const INST_READ: byte := 0x02
  const INST_WRITE: byte := 0x03
  const INST_RECOVERY: byte := 0x06
  const INST_SYNC_WRITE: byte := 0x83

  /** `~(sum of body) mod 256`: the complement of the 8-bit sum. */
  function Checksum(body: seq<byte>): (c: byte)
    ensures (Sum(body) + c) % 0x100 == 0xFF
  {
    0xFF - Sum(body) % 0x100
  }

  /** Two bodies have the same checksum exactly when their sums agree modulo 256. */
  lemma ChecksumEq(a: seq<byte>, b: seq<byte>)
    ensures Checksum(a) == Checksum(b) <==> Sum(a) % 0x100 == Sum(b) % 0x100
  {
  }

  /** The parameters `write_frame` sends: the caller's bytes, or zeros for a null pointer. */
  function Payload(params: Option<seq<byte>>, n: nat): (p: seq<byte>)
    requires params.Some? ==> |params.value| == n
    ensures |p| == n
    ensures params.None? ==> forall i :: 0 <= i < n ==> p[i] == 0
    ensures params.Some? ==> p == params.value
  {
    if params.None? then Zeros(n) else params.value
  }

  /** The bytes from `id` to the last parameter; the length byte is truncated to 8 bits as `(u8)length`. */
  function Body(id: byte, instr: byte, params: seq<byte>): seq<byte>
  {
    [id, (|params| + 2) % 0x100, instr] + params
  }

  /** The frame `write_frame(id, instr, params, |params|)` puts on the wire. */
  function Encode(id: byte, instr: byte, params: seq<byte>): (f: seq<byte>)
    ensures |f| == |params| + 6
    ensures f[0] == HEADER && f[1] == HEADER && f[2] == id && f[4] == instr
    ensures f[5..|f| - 1] == params
    ensures |params| <= 253 ==> f[3] == |params| + 2
  {
    var body := Body(id, instr, params);
    var f := [HEADER, HEADER] + body + [Checksum(body)];
    assert f[5..|f| - 1] == params;
    f
  }

  /** Every encoded frame sums to 0xFF modulo 256 from the address through the checksum. */
  lemma EncodeChecksum(id: byte, instr: byte, params: seq<byte>)
    ensures Sum(Encode(id, instr, params)[2..]) % 0x100 == 0xFF
  {
    var body := Body(id, instr, params);
    assert Encode(id, instr, params)[2..] == body + [Checksum(body)];
    SumAppend(body, [Checksum(body)]);
  }

  /** A reply `reply_frame` decodes: the sender, its status byte and its parameters. */
  datatype Reply = Reply(id: byte, status: byte, params: seq<byte>)

  /** The checks `reply_frame` applies to the bytes read when it expects `n` parameters. */
  predicate WellFormed(got: seq<byte>, n: nat)
  {
    && |got| == n + 6
    && got[0] == HEADER && got[1] == HEADER
    && got[3] == n + 2
    && got[n + 5] == Checksum(got[2..n + 5])
  }

  /** Validates the bytes read for a reply with `n` parameters and extracts its fields. */
  function Decode(got: seq<byte>, n: nat): (r: Option<Reply>)
    ensures r.Some? <==> WellFormed(got, n)
    ensures r.Some? ==> |r.value.params| == n
  {
    if WellFormed(got, n) then Some(Reply(got[2], got[4], got[5..n + 5])) else None
  }

  /** Decoding what `Encode` produced gives back its address, instruction (as status) and parameters. */
  lemma DecodeEncode(id: byte, instr: byte, params: seq<byte>)
    requires |params| <= 253
    ensures Decode(Encode(id, instr, params), |params|) == Some(Reply(id, instr, params))
  {
    var f := Encode(id, instr, params);
    var n := |params|;
    var body := Body(id, instr, params);
    assert f[2..n + 5] == body;
  }

  /** Every frame `Decode` accepts is exactly the encoding of what it returns. */
  lemma EncodeDecode(got: seq<byte>, n: nat)
    requires Decode(got, n).Some?
    ensures n <= 253
    ensures var r := Decode(got, n).value; Encode(r.id, r.status, r.params) == got
  {
    var r := Decode(got, n).value;
    var f := Encode(r.id, r.status, r.params);
    assert got[2..n + 5] == Body(r.id, r.status, r.params);
    assert f == got;
  }

  /** Replacing any one byte from the address onwards of a valid frame makes it invalid. */
  lemma {:induction false} DecodeRejectsCorruption(id: byte, instr: byte, params: seq<byte>, i: nat, v: byte)
    requires |params| <= 253
    requires 2 <= i < |params| + 6
    requires v != Encode(id, instr, params)[i]
    ensures Decode(Encode(id, instr, params)[i := v], |params|).None?
  {
    var f := Encode(id, instr, params);
    var n := |params|;
    var g := f[i := v];
    if i == 3 {
      assert g[3] != n + 2;
    } else if i == n + 5 {
      assert g[2..n + 5] == f[2..n + 5];
      DecodeEncode(id, instr, params);
      assert g[n + 5] != Checksum(g[2..n + 5]);
    } else {
      DecodeEncode(id, instr, params);
      assert f[n + 5] == Checksum(f[2..n + 5]);
      assert g[2..n + 5] == f[2..n + 5][i - 2 := v];
      SumUpdate(f[2..n + 5], i - 2, v);
      ModShift(Sum(f[2..n + 5]), v - f[i]);
      ChecksumEq(f[2..n + 5], g[2..n + 5]);
      assert g[n + 5] == f[n + 5];
    }
  }
}

=== FILE: host_protocol.dfy ===
/**
 The host side of the link between the Raspberry Pi and the ESP32: how a
 request is built (continuity index, header byte, checksum, COBS-R framing
 of everything from the code byte on), the byte-at-a-time parser that
 reassembles replies, and the little-endian word payloads of the servo
 commands.

 COBS-R comes from a foreign package, so its encoder and decoder are
 parameters; the lemmas that need them state the package's promises (no zero
 byte in an encoding, at least one byte out, decoding inverts encoding) as
 the predicate `CobsCodec`. A Python exception is a `None` result, or a
 `raised` flag where the parser's state survives it.
 */
module HostProtocol {
  import opened Wire

  /** A byte-string transformation: the COBS-R encoder or decoder. */
  type Codec = seq<byte> -> seq<byte>

  /** What the COBS-R package promises: encodings are non-empty, zero-free, and decode back. */
  ghost predicate CobsCodec(cobs: Codec, decode: Codec)
  {
    forall x :: 0 < |cobs(x)| && 0 !in cobs(x) && decode(cobs(x)) == x
  }

  // ---------------------------------------------------------------------
  // Building a request (`compileMessage`)
  // ---------------------------------------------------------------------

  /**
   The continuity index the builder keeps after a call: the next index in
   0..253 when the caller asks for none (`requested == 0`), otherwise the
   caller's index less one. The byte on the wire is this plus one.
   */
  function NextCi(ci: int, requested: int): (r: int)
    ensures requested == 0 ==> 0 <= r < 254 && r + 1 != 0
    ensures requested == 0 ==> r == (ci + 1) % 254
    ensures requested != 0 ==> r + 1 == requested
  {
    if requested == 0 then (ci + 1) % 254 else requested - 1
  }

  /** `((ACK & 1) << 7) | ord(cmd)`: bit 7 carries the acknowledge request, the rest is the command. */
  function HeaderByte(ack: int, cmd: nat): (h: nat)
    ensures h % 0x80 == cmd % 0x80
    ensures h / 0x80 % 2 == (if cmd / 0x80 % 2 == 1 then 1 else ack % 2)
    ensures h / 0x100 == cmd / 0x100
  {
    cmd + (if ack % 2 == 1 && cmd / 0x80 % 2 == 0 then 0x80 else 0)
  }

  /** The check byte: what brings the byte sum of the message to a multiple of 256. */
  function CheckByte(plain: seq<byte>): (c: byte)
    ensures (Sum(plain) + c) % 0x100 == 0
  {
    (0x100 - Sum(plain) % 0x100) % 0x100
  }

  /** The message before the check byte: `[0, header, ci, |data|, code] + data`. */
  function Plain(header: byte, sendCi: byte, code: byte, data: seq<byte>): (m: seq<byte>)
    requires |data| < 0x100
    ensures |m| == |data| + 5 && m[5..] == data
  {
    [0, header, sendCi, |data|, code] + data
  }

  /** The message with its check byte; its byte sum is a multiple of 256. */
  function Sealed(plain: seq<byte>): (m: seq<byte>)
    ensures |m| == |plain| + 1 && m[..|plain|] == plain
  {
    plain + [CheckByte(plain)]
  }

  lemma SealedSum(plain: seq<byte>)
    ensures Sum(Sealed(plain)) % 0x100 == 0
  {
    SumAppend(plain, [CheckByte(plain)]);
  }

  /** The builder's new continuity index, and the message unless Python raised `ValueError`. */
  datatype Compiled = Compiled(ci: int, message: Option<seq<byte>>)

  /** Every argument fits the byte it is appended as. */
  predicate Appendable(cmd: char, code: int, data: seq<byte>, requested: int)
  {
    (cmd as int) < 0x100 && (requested == 0 || 1 <= requested < 0x100) && |data| < 0x100 && 0 <= code < 0x100
  }

  /** The unencoded message for arguments that are `Appendable`. */
  function Unencoded(ci: int, cmd: char, code: int, data: seq<byte>, ack: int, requested: int): (m: seq<byte>)
    requires Appendable(cmd, code, data, requested)
    ensures |m| == |data| + 6
  {
    Sealed(Plain(HeaderByte(ack, cmd as int), NextCi(ci, requested) + 1, code, data))
  }

  /**
   `compileMessage`. The continuity index moves first, so it moves even when
   an argument does not fit a byte or the encoded tail is longer than 255
   bytes and Python raises. The message is the unencoded one with
   everything from the code byte on replaced by its COBS-R encoding, and the
   length byte replaced by the encoding's length.
   */
  function CompileMessage(ci: int, cmd: char, code: int, data: seq<byte>, ack: int, requested: int, cobs: Codec): (r: Compiled)
    ensures requested == 0 ==> 0 <= r.ci < 254 && r.ci == (ci + 1) % 254
    ensures requested != 0 ==> r.ci + 1 == requested
    ensures r.message.Some? <==>
      Appendable(cmd, code, data, requested) && |cobs(Unencoded(ci, cmd, code, data, ack, requested)[4..])| < 0x100
    ensures r.message.Some? ==>
      var m := r.message.value;
      && |m| >= 4 && m[0] == 0 && m[1] == HeaderByte(ack, cmd as int) && m[2] == r.ci + 1
      && m[3] == |m| - 4
      && m[4..] == cobs(Unencoded(ci, cmd, code, data, ack, requested)[4..])
      && (requested == 0 ==> 1 <= m[2] <= 254)
      && (requested != 0 ==> m[2] == requested)
  {
    var next := NextCi(ci, requested);
    if !Appendable(cmd, code, data, requested) then Compiled(next, None)
    else
      var unencoded := Unencoded(ci, cmd, code, data, ack, requested);
      var encoded := cobs(unencoded[4..]);
      if |encoded| >= 0x100 then Compiled(next, None)
      else Compiled(next, Some(unencoded[..3] + [|encoded|] + encoded))
  }

  /** The check byte makes the whole unencoded message sum to a multiple of 256, and it keeps the layout. */
  lemma UnencodedLayout(ci: int, cmd: char, code: int, data: seq<byte>, ack: int, requested: int)
    requires Appendable(cmd, code, data, requested)
    ensures var m := Unencoded(ci, cmd, code, data, ack, requested);
      && Sum(m) % 0x100 == 0
      && m[0] == 0 && m[1] == HeaderByte(ack, cmd as int) && m[3] == |data| && m[4] == code
      && m[5..|m| - 1] == data
      && (requested == 0 ==> 1 <= m[2] <= 254)
      && (requested != 0 ==> m[2] == requested)
  {
    var plain := Plain(HeaderByte(ack, cmd as int), NextCi(ci, requested) + 1, code, data);
    SealedSum(plain);
    assert Unencoded(ci, cmd, code, data, ack, requested)[5..|data| + 5] == plain[5..];
  }

  // ---------------------------------------------------------------------
  // Parsing replies (`parse`)
  // ---------------------------------------------------------------------

  datatype ParserState = Idle | WaitForCmd | WaitForCi | WaitForLen | CollectEncodedData

  /**
   `BipropellantPacket`. `code` and `cs` are `None` until a packet completes
   (Python keeps the integer 0 there; a completed packet holds the byte as a
   two-digit hex string).
   */
  datatype Packet = Packet(
    raw: seq<byte>, rawDecoded: seq<byte>,
    ack: byte, cmd: byte, ci: byte, len: byte,
    code: Option<byte>, cs: Option<byte>)

  const EMPTY_PACKET := Packet([], [], 0, 0, 0, 0, None, None)

  /** `ParseProtocol`'s receiving side: state, packet in progress, bytes still expected, packets started. */
  datatype Parser = Parser(state: ParserState, packet: Packet, expected: nat, received: nat)

  const INITIAL_PARSER := Parser(Idle, EMPTY_PACKET, 0, 0)

  /** The parser after one byte; `raised` when Python raised `IndexError` on an empty decoding. */
  datatype Stepped = Stepped(parser: Parser, raised: bool)

  /** `s[n:]` in Python: empty when `s` is shorter than `n`. */
  function Skip<T>(s: seq<T>, n: nat): (r: seq<T>)
    ensures |s| >= n ==> r == s[n..]
  {
    if |s| <= n then [] else s[n..]
  }

  /**
   `parse(newCharacter)` with printing off. The byte is appended to the
   current packet's `raw` first; a zero byte then starts a fresh packet
   from any state. Otherwise the header bytes are taken one by one, the
   length byte sets the count of encoded bytes to collect, and the last of
   those decodes the packet and returns to `Idle`. Any other byte is only
   recorded.
   */
  function Step(p: Parser, b: byte, decode: Codec): (s: Stepped)
    ensures b == 0 ==> !s.raised && s.parser.state == WaitForCmd && s.parser.packet == EMPTY_PACKET.(raw := [0])
    ensures b == 0 ==> s.parser.received == p.received + 1 && s.parser.expected == p.expected
    ensures b != 0 ==> s.parser.packet.raw == p.packet.raw + [b] && s.parser.received == p.received
    ensures s.raised ==> p.state == CollectEncodedData && p.expected == 1 && s.parser.state == CollectEncodedData
    ensures s.parser.state == Idle && p.state != Idle ==> p.state == CollectEncodedData && p.expected == 1 && b != 0
  {
    var packet := p.packet.(raw := p.packet.raw + [b]);
    if b == 0 then
      Stepped(Parser(WaitForCmd, EMPTY_PACKET.(raw := [0]), p.expected, p.received + 1), false)
    else
      match p.state
      case WaitForCmd => Stepped(p.(state := WaitForCi, packet := packet.(ack := b / 0x80, cmd := b % 0x80)), false)
      case WaitForCi => Stepped(p.(state := WaitForLen, packet := packet.(ci := b)), false)
      case WaitForLen => Stepped(p.(state := CollectEncodedData, packet := packet.(len := b), expected := b), false)
      case CollectEncodedData =>
        if p.expected == 0 then Stepped(p.(packet := packet), false)
        else if p.expected > 1 then Stepped(p.(packet := packet, expected := p.expected - 1), false)
        else
          var decoded := Take(packet.raw, 4) + decode(Skip(packet.raw, 4));
          if |decoded| < 5 then Stepped(p.(packet := packet.(rawDecoded := decoded), expected := 0), true)
          else
            var done := packet.(rawDecoded := decoded, code := Some(decoded[4]), cs := Some(decoded[|decoded| - 1]));
            Stepped(Parser(Idle, done, 0, p.received), false)
      case Idle => Stepped(p.(packet := packet), false)
  }

  /** Feed bytes one at a time, stopping at the first exception. */
  function Run(p: Parser, bytes: seq<byte>, decode: Codec): (s: Stepped)
    decreases |bytes|
  {
    if |bytes| == 0 then Stepped(p, false)
    else
      var s := Step(p, bytes[0], decode);
      if s.raised then s else Run(s.parser, bytes[1..], decode)
  }

  lemma {:induction false} RunAppend(p: Parser, a: seq<byte>, b: seq<byte>, decode: Codec)
    ensures Run(p, a + b, decode) ==
      var s := Run(p, a, decode); if s.raised then s else Run(s.parser, b, decode)
    decreases |a|
  {
    if |a| == 0 {
      assert a + b == b;
    } else {
      assert (a + b)[0] == a[0];
      assert (a + b)[1..] == a[1..] + b;
      var s := Step(p, a[0], decode);
      if !s.raised {
        RunAppend(s.parser, a[1..], b, decode);
      }
    }
  }

  /**
   The shape of `raw` in each state, for parsers that started from the
   initial one: the header bytes so far after the zero byte, then the
   encoded bytes collected so far.
   */
  predicate Consistent(p: Parser)
  {
    match p.state
    case Idle => true
    case WaitForCmd => p.packet.raw == [0]
    case WaitForCi => |p.packet.raw| == 2 && p.packet.raw[0] == 0
    case WaitForLen => |p.packet.raw| == 3 && p.packet.raw[0] == 0
    case CollectEncodedData =>
      && |p.packet.raw| >= 4 && p.packet.raw[0] == 0 && p.packet.raw[3] == p.packet.len
      && p.expected <= p.packet.len
      && (p.expected > 0 ==> |p.packet.raw| == 4 + p.packet.len - p.expected)
  }

  /** Every step keeps `raw` in the shape its state promises. */
  lemma StepConsistent(p: Parser, b: byte, decode: Codec)
    requires Consistent(p)
    ensures Consistent(Step(p, b, decode).parser)
  {
  }

  lemma {:induction false} RunConsistent(p: Parser, bytes: seq<byte>, decode: Codec)
    requires Consistent(p)
    ensures Consistent(Run(p, bytes, decode).parser)
    decreases |bytes|
  {
    if |bytes| > 0 {
      StepConsistent(p, bytes[0], decode);
      var s := Step(p, bytes[0], decode);
      if !s.raised {
        RunConsistent(s.parser, bytes[1..], decode);
      }
    }
  }

  /** While more encoded bytes are expected, non-zero bytes are only collected. */
  lemma {:induction false} Countdown(p: Parser, bytes: seq<byte>, decode: Codec)
    requires p.state == CollectEncodedData && |bytes| < p.expected && 0 !in bytes
    ensures var s := Run(p, bytes, decode);
      !s.raised && s.parser == p.(packet := p.packet.(raw := p.packet.raw + bytes), expected := p.expected - |bytes|)
    decreases |bytes|
  {
    if |bytes| == 0 {
      assert p.packet.raw + bytes == p.packet.raw;
    } else {
      var q := Step(p, bytes[0], decode).parser;
      assert bytes[0] in bytes;
      assert 0 !in bytes[1..] by {
        assert forall i :: 0 <= i < |bytes[1..]| ==> bytes[1..][i] == bytes[i + 1];
      }
      Countdown(q, bytes[1..], decode);
      assert p.packet.raw + [bytes[0]] + bytes[1..] == p.packet.raw + bytes;
    }
  }

  /**
   After a length byte `len > 0`, the packet is complete (back to `Idle`, or
   Python raised on an empty decoding) after exactly `len` further non-zero
   bytes and not before.
   */
  lemma LengthThenData(p: Parser, len: byte, bytes: seq<byte>, decode: Codec)
    requires p.state == WaitForLen && len > 0 && |bytes| == len as int && 0 !in bytes
    ensures forall j :: 0 <= j < len ==>
      var s := Run(p, [len] + bytes[..j], decode); !s.raised && s.parser.state == CollectEncodedData
    ensures var s := Run(p, [len] + bytes, decode); s.raised || s.parser.state == Idle
  {
    var q := Step(p, len, decode).parser;
    assert q.state == CollectEncodedData && q.expected == len as int;
    forall j | 0 <= j < len
      ensures var s := Run(p, [len] + bytes[..j], decode); !s.raised && s.parser.state == CollectEncodedData
    {
      assert 0 !in bytes[..j] by {
        assert forall i :: 0 <= i < j ==> bytes[..j][i] == bytes[i];
      }
      RunAppend(p, [len], bytes[..j], decode);
      Countdown(q, bytes[..j], decode);
    }
    var front := bytes[..len - 1];
    assert 0 !in front by {
      assert forall i :: 0 <= i < |front| ==> front[i] == bytes[i];
    }
    assert bytes == front + [bytes[len - 1]];
    RunAppend(p, [len], bytes, decode);
    RunAppend(q, front, [bytes[len - 1]], decode);
    Countdown(q, front, decode);
  }

  /**
   A complete packet `[0, header, ci, len] + encoded` is parsed from any
   parser state: the header fields are split out, and the packet decodes to
   the first four bytes followed by the decoding of the encoded part.
   */
  lemma ParseFrame(p: Parser, header: byte, ci: byte, len: byte, encoded: seq<byte>, decode: Codec)
    requires header != 0 && ci != 0 && len > 0 && |encoded| == len as int && 0 !in encoded
    ensures var s := Run(p, [0, header, ci, len] + encoded, decode);
      && (s.raised <==> |decode(encoded)| == 0)
      && (!s.raised ==>
           && s.parser.state == Idle && s.parser.received == p.received + 1
           && s.parser.packet.raw == [0, header, ci, len] + encoded
           && s.parser.packet.rawDecoded == [0, header, ci, len] + decode(encoded)
           && s.parser.packet.ack == header / 0x80 && s.parser.packet.cmd == header % 0x80
           && s.parser.packet.ci == ci && s.parser.packet.len == len
           && s.parser.packet.code == Some(decode(encoded)[0])
           && s.parser.packet.cs == Some(decode(encoded)[|decode(encoded)| - 1]))
  {
    var q := HeaderRun(p, header, ci, decode);
    assert [0, header, ci, len] + encoded == [0, header, ci] + ([len] + encoded);
    RunAppend(p, [0, header, ci], [len] + encoded, decode);
    DataRun(q, len, encoded, decode);
  }

  /** The zero byte and two header bytes leave the parser waiting for the length, fields filled in. */
  lemma HeaderRun(p: Parser, header: byte, ci: byte, decode: Codec) returns (q: Parser)
    requires header != 0 && ci != 0
    ensures var s := Run(p, [0, header, ci], decode); !s.raised && s.parser == q
    ensures q.state == WaitForLen && q.received == p.received + 1
    ensures q.packet == EMPTY_PACKET.(raw := [0, header, ci], ack := header / 0x80, cmd := header % 0x80, ci := ci)
  {
    var s0 := Step(p, 0, decode);
    var s1 := Step(s0.parser, header, decode);
    var s2 := Step(s1.parser, ci, decode);
    q := s2.parser;
    assert [0, header, ci] == [0] + [header] + [ci];
    RunAppend(p, [0] + [header], [ci], decode);
    RunAppend(p, [0], [header], decode);
  }

  /** From `WaitForLen`, the length byte and the encoded bytes complete the packet. */
  lemma DataRun(q: Parser, len: byte, encoded: seq<byte>, decode: Codec)
    requires q.state == WaitForLen && |q.packet.raw| == 3
    requires len > 0 && |encoded| == len as int && 0 !in encoded
    ensures var s := Run(q, [len] + encoded, decode);
      && (s.raised <==> |decode(encoded)| == 0)
      && (!s.raised ==>
           && s.parser.state == Idle && s.parser.received == q.received
           && s.parser.packet == q.packet.(
                raw := q.packet.raw + [len] + encoded,
                rawDecoded := q.packet.raw + [len] + decode(encoded),
                len := len,
                code := Some(decode(encoded)[0]),
                cs := Some(decode(encoded)[|decode(encoded)| - 1])))
  {
    var q1 := Step(q, len, decode).parser;
    var front := encoded[..len - 1];
    assert 0 !in front by {
      assert forall i :: 0 <= i < |front| ==> front[i] == encoded[i];
    }
    assert encoded == front + [encoded[len - 1]];
    RunAppend(q, [len], encoded, decode);
    RunAppend(q1, front, [encoded[len - 1]], decode);
    Countdown(q1, front, decode);
    var raw := q.packet.raw + [len] + front + [encoded[len - 1]];
    assert raw == q.packet.raw + [len] + encoded;
    assert Take(raw, 4) == q.packet.raw + [len];
    assert Skip(raw, 4) == encoded;
  }

  // ---------------------------------------------------------------------
  // Servo payloads (`decodeServoResponse`, `servos_set_position`)
  // ---------------------------------------------------------------------

  /** `rawDecoded[5:-1]`: what lies between the code byte and the check byte. */
  function Payload(rawDecoded: seq<byte>): (r: seq<byte>)
    ensures |r| == if |rawDecoded| >= 6 then |rawDecoded| - 6 else 0
    ensures forall i :: 0 <= i < |r| ==> r[i] == rawDecoded[5 + i]
  {
    if |rawDecoded| >= 6 then rawDecoded[5..|rawDecoded| - 1] else []
  }

  /** Consecutive little-endian 16-bit words; an odd trailing byte is a word by itself. */
  function DecodeWords(bytes: seq<byte>): (ws: seq<u16>)
    ensures |ws| == (|bytes| + 1) / 2
    decreases |bytes|
  {
    if |bytes| == 0 then []
    else if |bytes| == 1 then [bytes[0]]
    else [bytes[0] as int + 0x100 * bytes[1] as int] + DecodeWords(bytes[2..])
  }

  /**
   `decodeServoResponse`: the payload of a received packet as words. Word `i`
   is built from bytes `5 + 2i` (low) and `6 + 2i` (high) of the decoded
   message; the high byte counts only when it lies before the check byte.
   */
  function DecodeServoResponse(packet: Packet): (ws: seq<u16>)
    ensures var raw := packet.rawDecoded;
      |ws| == if |raw| >= 6 then (|raw| - 5) / 2 else 0
    ensures var raw := packet.rawDecoded;
      forall i :: 0 <= i < |ws| ==>
        ws[i] == raw[5 + 2 * i] as int + (if 6 + 2 * i < |raw| - 1 then 0x100 * raw[6 + 2 * i] as int else 0)
  {
    DecodeWordsAt(Payload(packet.rawDecoded));
    DecodeWords(Payload(packet.rawDecoded))
  }

  /** Word `i` of a decoded payload, by position: low byte first. */
  lemma {:induction false} DecodeWordsAt(bytes: seq<byte>)
    ensures forall i :: 0 <= i < |DecodeWords(bytes)| ==>
      DecodeWords(bytes)[i] == bytes[2 * i] as int + (if 2 * i + 1 < |bytes| then 0x100 * bytes[2 * i + 1] as int else 0)
    decreases |bytes|
  {
    if |bytes| >= 2 {
      DecodeWordsAt(bytes[2..]);
      var ws := DecodeWords(bytes);
      forall i | 1 <= i < |ws|
        ensures ws[i] == bytes[2 * i] as int + (if 2 * i + 1 < |bytes| then 0x100 * bytes[2 * i + 1] as int else 0)
      {
        assert ws[i] == DecodeWords(bytes[2..])[i - 1];
        assert bytes[2..][2 * (i - 1)] == bytes[2 * i];
        if 2 * i + 1 < |bytes| {
          assert bytes[2..][2 * (i - 1) + 1] == bytes[2 * i + 1];
        }
      }
    }
  }

  /** `int(w).to_bytes(2, 'little')` for each word, in order. */
  function EncodeWords(ws: seq<u16>): (bytes: seq<byte>)
    ensures |bytes| == 2 * |ws|
    ensures forall i :: 0 <= i < |ws| ==> bytes[2 * i] == Lo(ws[i]) && bytes[2 * i + 1] == Hi(ws[i])
  {
    if |ws| == 0 then [] else [Lo(ws[0]), Hi(ws[0])] + EncodeWords(ws[1..])
  }

  /** Decoding the bytes of a word list gives the list back. */
  lemma {:induction false} WordsRoundTrip(ws: seq<u16>)
    ensures DecodeWords(EncodeWords(ws)) == ws
  {
    if |ws| > 0 {
      WordsRoundTrip(ws[1..]);
      DecodeWordsCons(Lo(ws[0]), Hi(ws[0]), EncodeWords(ws[1..]));
      LoHi(ws[0]);
      assert ws == [ws[0]] + ws[1..];
    }
  }

  lemma DecodeWordsCons(lo: byte, hi: byte, rest: seq<byte>)
    ensures DecodeWords([lo, hi] + rest) == [lo as int + 0x100 * hi as int] + DecodeWords(rest)
  {
    assert ([lo, hi] + rest)[2..] == rest;
  }

  lemma LoHi(w: u16)
    ensures Lo(w) as int + 0x100 * Hi(w) as int == w
  {
    WordOfBytes(w);
  }

  /**
   `servos_set_position`: the first twelve positions as little-endian words;
   `None` where Python raises (fewer than twelve positions, or one outside
   0..65535).
   */
  function ServoPositionsData(positions: seq<int>): (r: Option<seq<byte>>)
    ensures r.Some? <==> |positions| >= 12 && forall i :: 0 <= i < 12 ==> 0 <= positions[i] < 0x1_0000
    ensures r.Some? ==> |r.value| == 24 && DecodeWords(r.value) == positions[..12]
  {
    if |positions| < 12 || exists i :: 0 <= i < 12 && !(0 <= positions[i] < 0x1_0000) then None
    else
      var ws: seq<u16> := seq(12, i requires 0 <= i < 12 => positions[i]);
      WordsRoundTrip(ws);
      Some(EncodeWords(ws))
  }

  // ---------------------------------------------------------------------
  // The two ends together
  // ---------------------------------------------------------------------

  /**
   A built message, read back by the parser from any state, gives back what
   was put in: the acknowledge bit, the command, the continuity byte, the
   code, the data and the check byte. Needs a command below 128 and a
   non-zero header (a zero header would restart the packet).
   */
  lemma CompileThenParse(p: Parser, ci: int, cmd: char, code: int, data: seq<byte>, ack: int, requested: int, cobs: Codec, decode: Codec)
    requires CobsCodec(cobs, decode)
    requires CompileMessage(ci, cmd, code, data, ack, requested, cobs).message.Some?
    requires (cmd as int) < 0x80 && HeaderByte(ack, cmd as int) != 0
    ensures var m := CompileMessage(ci, cmd, code, data, ack, requested, cobs).message.value;
      var s := Run(p, m, decode);
      && !s.raised && s.parser.state == Idle && s.parser.received == p.received + 1
      && s.parser.packet.ack == ack % 2 && s.parser.packet.cmd == cmd as int
      && s.parser.packet.ci == m[2]
      && s.parser.packet.code == Some(code)
      && Payload(s.parser.packet.rawDecoded) == data
      && s.parser.packet.cs == Some(Unencoded(ci, cmd, code, data, ack, requested)[|data| + 5])
  {
    var m := CompileMessage(ci, cmd, code, data, ack, requested, cobs).message.value;
    var u := Unencoded(ci, cmd, code, data, ack, requested);
    UnencodedLayout(ci, cmd, code, data, ack, requested);
    var encoded := cobs(u[4..]);
    assert decode(encoded) == u[4..] && 0 !in encoded && |encoded| > 0;
    assert m == [0, m[1], m[2], m[3]] + encoded;
    ParseFrame(p, m[1], m[2], m[3], encoded, decode);
    var rd := Run(p, m, decode).parser.packet.rawDecoded;
    assert rd[4..] == u[4..] && |rd| == |u|;
    assert rd[5..|rd| - 1] == u[5..|u| - 1];
  }

  /** Words sent as little-endian data (as `servos_set_position` does) and echoed in a reply decode to the same words. */
  lemma ResponseRoundTrip(p: Parser, ci: int, cmd: char, code: int, ws: seq<u16>, ack: int, requested: int, cobs: Codec, decode: Codec)
    requires CobsCodec(cobs, decode)
    requires CompileMessage(ci, cmd, code, EncodeWords(ws), ack, requested, cobs).message.Some?
    requires (cmd as int) < 0x80 && HeaderByte(ack, cmd as int) != 0
    ensures var m := CompileMessage(ci, cmd, code, EncodeWords(ws), ack, requested, cobs).message.value;
      DecodeServoResponse(Run(p, m, decode).parser.packet) == ws
  {
    CompileThenParse(p, ci, cmd, code, EncodeWords(ws), ack, requested, cobs, decode);
    WordsRoundTrip(ws);
  }
}

=== FILE: servos.dfy ===
/**
 The servo bus engine's state and its synchronous (foreground) API: the power
 gate, the switch that suspends or resumes the background service, the
 register read/write transactions and the operations built on them.

 Every synchronous operation first checks that the servo rail is powered, then
 suspends the background service, then talks to the bus. I/O is the `Port`
 trace; what the servos answer is the port's queue of incoming chunks.
 */
module Servos {
  import opened Wire
  import opened Frame
  import opened Uart

  /** Register addresses of the servo's memory map. */
  const REG_ID: byte := 5
  const REG_TORQUE_ENABLE: byte := 40
  const REG_GOAL_POSITION_L: byte := 42
  const REG_LOCK: byte := 48
  const REG_PRESENT_POSITION_L: byte := 56
  const REG_PRESENT_SPEED_L: byte := 58
  const REG_PRESENT_LOAD_L: byte := 60
  const REG_PRESENT_VOLTAGE: byte := 62
  const REG_PRESENT_TEMPERATURE: byte := 63
  const REG_MOVING: byte := 66
  const REG_PRESENT_CURRENT_L: byte := 69

  /** The goal position every servo starts with: the centre of the 0..1023 range. */
  const CENTRE: u16 := 512

  /** The cached view of one servo. */
  datatype ServoState = ServoState(
    id: byte,
    goalPosition: u16,
    presentPosition: u16,
    presentVelocity: s16,
    presentLoad: s16,
    presentVoltage: byte,
    presentTemperature: byte,
    presentMove: byte,
    presentCurrent: s16)

  /** The twelve servo records, in bus order. */
  type Cache = s: seq<ServoState> | |s| == 12
    witness seq(12, _ => ServoState(1, 512, 0, 0, 0, 0, 0, 0, 0))

  /** Index of a servo record: the worker's round-robin cursor ranges over these. */
  type Index = i: int | 0 <= i < 12

  datatype Engine = Engine(
    isEnabled: bool,
    isTorqueEnabled: bool,
    isSyncRunning: bool,
    state: Cache,
    port: Port)

  datatype Status = Ok | Fail

  /** What a synchronous command leaves behind: the new engine and its status. */
  datatype Outcome = Outcome(engine: Engine, status: Status)

  /** What a synchronous read leaves behind; `None` is a failure, the caller's variable untouched. */
  datatype Reading<+T> = Reading(engine: Engine, value: Option<T>)

  /** The cache as the engine starts: servos 1..12 in order, every goal at the centre. */
  function InitialCache(): (c: Cache)
    ensures forall i :: 0 <= i < 12 ==> c[i].id == i + 1 && c[i].goalPosition == CENTRE
  {
    seq(12, i requires 0 <= i < 12 => ServoState(i + 1, CENTRE, 0, 0, 0, 0, 0, 0, 0))
  }

  /** The background service only ever runs while the rail is powered. */
  predicate Quiescent(e: Engine)
  {
    !e.isEnabled ==> !e.isSyncRunning
  }

  /** The constructor: rail off, service stopped, `incoming` is what the bus will deliver. */
  function Boot(incoming: seq<seq<byte>>): (e: Engine)
    ensures !e.isEnabled && !e.isTorqueEnabled && !e.isSyncRunning && Quiescent(e)
    ensures e.state == InitialCache() && e.port.trace == []
  {
    Engine(false, false, false, InitialCache(), Port([], incoming))
  }

  /** `disable`: switch the rail off and reset the torque and service flags. */
  function Disable(e: Engine): (r: Engine)
    ensures !r.isEnabled && !r.isTorqueEnabled && !r.isSyncRunning && Quiescent(r)
    ensures r.state == e.state && r.port == e.port
  {
    e.(isEnabled := false, isTorqueEnabled := false, isSyncRunning := false)
  }

  /** `enable`: switch the rail on; torque and service start out off. */
  function Enable(e: Engine): (r: Engine)
    ensures r.isEnabled && !r.isTorqueEnabled && !r.isSyncRunning && Quiescent(r)
    ensures r.state == e.state && r.port == e.port
  {
    e.(isEnabled := true, isTorqueEnabled := false, isSyncRunning := false)
  }

  /**
   `enableAsyncService`: start or suspend the background service. Nothing
   happens without power or when the service is already in the requested
   mode; otherwise the flag changes and unread input is discarded.
   */
  function EnableAsyncService(e: Engine, enable: bool): (r: Engine)
    ensures !e.isEnabled || e.isSyncRunning == enable ==> r == e
    ensures e.isEnabled ==> r.isSyncRunning == enable
    ensures e.isEnabled && e.isSyncRunning != enable ==> r.port == Discard(e.port)
    ensures r == e.(isSyncRunning := r.isSyncRunning, port := r.port)
    ensures Quiescent(e) ==> Quiescent(r)
  {
    if !e.isEnabled || e.isSyncRunning == enable then e
    else e.(isSyncRunning := enable, port := Discard(e.port))
  }

  /** `write_frame`: discard unread input, then send one frame. */
  function SendFrame(e: Engine, id: byte, instr: byte, params: seq<byte>): (r: Engine)
    ensures r == e.(port := r.port) && r.port.incoming == e.port.incoming
    ensures r.port.trace == e.port.trace + [Flush, Tx(Encode(id, instr, params))]
    ensures Extends(e.port, r.port) && Frames(Since(e.port, r.port)) == [Encode(id, instr, params)]
  {
    var r := e.(port := Write(Discard(e.port), Encode(id, instr, params)));
    FramesOfSend(Encode(id, instr, params));
    assert Since(e.port, r.port) == [Flush, Tx(Encode(id, instr, params))];
    r
  }

  /** `reply_frame`: read at most one reply's worth of bytes, discard the rest, validate. */
  function AwaitReply(e: Engine, n: nat): (r: (Engine, Option<Reply>))
    ensures r.0 == e.(port := r.0.port)
    ensures r.0.port.trace == e.port.trace + [Rx(Take(Pending(e.port), n + 6)), Flush]
    ensures r.0.port.incoming == Drop(e.port.incoming, 1)
    ensures r.1 == Decode(Take(Pending(e.port), n + 6), n)
  {
    var (p, got) := Read(e.port, n + 6);
    (e.(port := Discard(p)), Decode(got, n))
  }

  /** The servo answered the last frame with `n` parameters, from `id`, with status 0. */
  predicate Accepted(chunk: seq<byte>, id: byte, n: nat)
  {
    var reply := Decode(Take(chunk, n + 6), n);
    reply.Some? && reply.value.id == id && reply.value.status == 0
  }

  /** The events of one request/acknowledge exchange. */
  function ExchangeEvents(frame: seq<byte>, got: seq<byte>): seq<Event>
  {
    [Flush, Tx(frame), Rx(got), Flush]
  }

  /** Send one frame and expect an empty acknowledgement from the addressed servo. */
  function Exchange(e: Engine, id: byte, instr: byte, params: seq<byte>): (r: Outcome)
    ensures r.engine == e.(port := r.engine.port)
    ensures r.engine.port.trace
         == e.port.trace + ExchangeEvents(Encode(id, instr, params), Take(Pending(e.port), 6))
    ensures r.engine.port.incoming == Drop(e.port.incoming, 1)
    ensures r.status == Ok <==> Accepted(Pending(e.port), id, 0)
  {
    var (e1, reply) := AwaitReply(SendFrame(e, id, instr, params), 0);
    if reply.None? || reply.value.id != id || reply.value.status != 0 then Outcome(e1, Fail)
    else Outcome(e1, Ok)
  }

  /** `write_register_byte`: payload `[reg, value]`, no reply awaited. */
  function WriteRegisterByte(e: Engine, id: byte, reg: byte, value: byte): (r: Engine)
    ensures r.port.trace == e.port.trace + [Flush, Tx(Encode(id, INST_WRITE, [reg, value]))]
    ensures r == e.(port := r.port) && r.port.incoming == e.port.incoming
  {
    SendFrame(e, id, INST_WRITE, [reg, value])
  }

  /** `write_register_word`: payload `[reg, hi, lo]`, big-endian, no reply awaited. */
  function WriteRegisterWord(e: Engine, id: byte, reg: byte, value: u16): (r: Engine)
    ensures var f := Encode(id, INST_WRITE, [reg, Hi(value), Lo(value)]);
      && r.port.trace == e.port.trace + [Flush, Tx(f)]
      && f[5] == reg && Word(f[6], f[7]) == value
    ensures r == e.(port := r.port) && r.port.incoming == e.port.incoming
  {
    SendFrame(e, id, INST_WRITE, [reg, Hi(value), Lo(value)])
  }

  /** `read_register_byte`: refused for broadcast; otherwise payload `[reg, 1]` and a one-byte reply. */
  function ReadRegisterByte(e: Engine, id: byte, reg: byte): (r: Reading<byte>)
    ensures id == BROADCAST_ID ==> r == Reading(e, None)
    ensures id != BROADCAST_ID ==>
      && r.engine.port.trace == e.port.trace + ExchangeEvents(Encode(id, INST_READ, [reg, 1]), Take(Pending(e.port), 7))
      && r.engine.port.incoming == Drop(e.port.incoming, 1)
      && (r.value.Some? <==> Accepted(Pending(e.port), id, 1))
    ensures r.value.Some? ==> r.value.value == Pending(e.port)[5]
    ensures r.engine == e.(port := r.engine.port)
  {
    if id == BROADCAST_ID then Reading(e, None)
    else
      var (e1, reply) := AwaitReply(SendFrame(e, id, INST_READ, [reg, 1]), 1);
      if reply.None? || reply.value.id != id || reply.value.status != 0 then Reading(e1, None)
      else Reading(e1, Some(reply.value.params[0]))
  }

  /** `read_register_word`: refused for broadcast; otherwise payload `[reg, 2]` and a big-endian word. */
  function ReadRegisterWord(e: Engine, id: byte, reg: byte): (r: Reading<u16>)
    ensures id == BROADCAST_ID ==> r == Reading(e, None)
    ensures id != BROADCAST_ID ==>
      && r.engine.port.trace == e.port.trace + ExchangeEvents(Encode(id, INST_READ, [reg, 2]), Take(Pending(e.port), 8))
      && r.engine.port.incoming == Drop(e.port.incoming, 1)
      && (r.value.Some? <==> Accepted(Pending(e.port), id, 2))
    ensures r.value.Some? ==> r.value.value == Word(Pending(e.port)[5], Pending(e.port)[6])
    ensures r.engine == e.(port := r.engine.port)
  {
    if id == BROADCAST_ID then Reading(e, None)
    else
      var (e1, reply) := AwaitReply(SendFrame(e, id, INST_READ, [reg, 2]), 2);
      if reply.None? || reply.value.id != id || reply.value.status != 0 then Reading(e1, None)
      else Reading(e1, Some(Word(reply.value.params[0], reply.value.params[1])))
  }

  /** Power and the cached servo records are untouched; only the bus and the service flag may differ. */
  predicate KeepsCache(e: Engine, r: Engine)
  {
    r.isEnabled == e.isEnabled && r.isTorqueEnabled == e.isTorqueEnabled && r.state == e.state
  }

  /**
   The shape shared by `ping`, `recovery` and `set_position`: power check,
   service suspended, broadcast refused before any frame is sent, then one
   exchange with an empty acknowledgement.
   */
  function UnicastCommand(e: Engine, id: byte, instr: byte, params: seq<byte>): (r: Outcome)
    ensures !e.isEnabled ==> r == Outcome(e, Fail)
    ensures e.isEnabled ==> !r.engine.isSyncRunning
    ensures id == BROADCAST_ID ==> r == Outcome(EnableAsyncService(e, false), Fail)
    ensures e.isEnabled && id != BROADCAST_ID ==>
      && r.engine.port.trace == EnableAsyncService(e, false).port.trace
           + ExchangeEvents(Encode(id, instr, params), Take(Pending(e.port), 6))
      && r.engine.port.incoming == Drop(e.port.incoming, 1)
      && (r.status == Ok <==> Accepted(Pending(e.port), id, 0))
    ensures Extends(e.port, r.engine.port)
    ensures Frames(Since(e.port, r.engine.port))
         == if e.isEnabled && id != BROADCAST_ID then [Encode(id, instr, params)] else []
    ensures KeepsCache(e, r.engine)
  {
    if !e.isEnabled then Outcome(e, Fail)
    else
      var e1 := EnableAsyncService(e, false);
      SuspendSendsNothing(e);
      if id == BROADCAST_ID then Outcome(e1, Fail)
      else
        var r := Exchange(e1, id, instr, params);
        var e2 := SendFrame(e1, id, instr, params);
        FramesAfterSend(e, e1, e2, Encode(id, instr, params));
        FramesAfterReply(e, e2, r.engine);
        r
  }

  /** `ping`: is servo `id` on the bus and healthy? The frame has no parameters (a null pointer of length 0). */
  function Ping(e: Engine, id: byte): (r: Outcome)
    ensures !e.isEnabled ==> r == Outcome(e, Fail)
    ensures id == BROADCAST_ID ==> r.status == Fail
    ensures Extends(e.port, r.engine.port)
    ensures Frames(Since(e.port, r.engine.port)) == if e.isEnabled && id != BROADCAST_ID then [Encode(id, INST_PING, [])] else []
    ensures e.isEnabled && id != BROADCAST_ID ==>
      (r.status == Ok <==> Accepted(Pending(e.port), id, 0))
    ensures e.isEnabled && id != BROADCAST_ID ==> r.engine.port.incoming == Drop(e.port.incoming, 1)
    ensures KeepsCache(e, r.engine) && (e.isEnabled ==> !r.engine.isSyncRunning)
  {
    UnicastCommand(e, id, INST_PING, Payload(None, 0))
  }

  /** `recovery`: the servo's recovery instruction, sent and acknowledged like a ping. */
  function Recovery(e: Engine, id: byte): (r: Outcome)
    ensures !e.isEnabled ==> r == Outcome(e, Fail)
    ensures id == BROADCAST_ID ==> r.status == Fail
    ensures Extends(e.port, r.engine.port)
    ensures Frames(Since(e.port, r.engine.port)) == if e.isEnabled && id != BROADCAST_ID then [Encode(id, INST_RECOVERY, [])] else []
    ensures e.isEnabled && id != BROADCAST_ID ==>
      (r.status == Ok <==> Accepted(Pending(e.port), id, 0))
    ensures e.isEnabled && id != BROADCAST_ID ==> r.engine.port.incoming == Drop(e.port.incoming, 1)
    ensures KeepsCache(e, r.engine) && (e.isEnabled ==> !r.engine.isSyncRunning)
  {
    UnicastCommand(e, id, INST_RECOVERY, Payload(None, 0))
  }

  /** `set_position`: write the goal-position word of one servo and await its acknowledgement. */
  function SetPosition(e: Engine, id: byte, position: u16): (r: Outcome)
    ensures !e.isEnabled ==> r == Outcome(e, Fail)
    ensures id == BROADCAST_ID ==> r.status == Fail
    ensures Extends(e.port, r.engine.port)
    ensures Frames(Since(e.port, r.engine.port))
         == if e.isEnabled && id != BROADCAST_ID
            then [Encode(id, INST_WRITE, [REG_GOAL_POSITION_L, Hi(position), Lo(position)])] else []
    ensures e.isEnabled && id != BROADCAST_ID ==>
      (r.status == Ok <==> Accepted(Pending(e.port), id, 0))
    ensures e.isEnabled && id != BROADCAST_ID ==> r.engine.port.incoming == Drop(e.port.incoming, 1)
    ensures KeepsCache(e, r.engine) && (e.isEnabled ==> !r.engine.isSyncRunning)
  {
    UnicastCommand(e, id, INST_WRITE, [REG_GOAL_POSITION_L, Hi(position), Lo(position)])
  }

  /**
   `enable_torque`: write 1 to the torque switch. A broadcast is not
   acknowledged, so the flag is set at once; a unicast sets it on success.
   */
  function EnableTorque(e: Engine, id: byte): (r: Outcome)
    ensures !e.isEnabled ==> r == Outcome(e, Fail)
    ensures e.isEnabled && id == BROADCAST_ID ==> r.status == Ok && r.engine.isTorqueEnabled
    ensures e.isEnabled && id != BROADCAST_ID ==>
      && (r.status == Ok <==> Accepted(Pending(e.port), id, 0))
      && r.engine.isTorqueEnabled == (r.status == Ok || e.isTorqueEnabled)
    ensures e.isEnabled ==> Extends(e.port, r.engine.port) && Frames(Since(e.port, r.engine.port)) == [Encode(id, INST_WRITE, [REG_TORQUE_ENABLE, 1])]
    ensures e.isEnabled ==> !r.engine.isSyncRunning
    ensures e.isEnabled && id == BROADCAST_ID ==> r.engine.port.incoming == e.port.incoming
    ensures e.isEnabled && id != BROADCAST_ID ==> r.engine.port.incoming == Drop(e.port.incoming, 1)
    ensures r.engine.isEnabled == e.isEnabled && r.engine.state == e.state
  {
    if !e.isEnabled then Outcome(e, Fail)
    else
      var e1 := EnableAsyncService(e, false);
      var e2 := WriteRegisterByte(e1, id, REG_TORQUE_ENABLE, 1);
      FramesAfterSend(e, e1, e2, Encode(id, INST_WRITE, [REG_TORQUE_ENABLE, 1]));
      if id == BROADCAST_ID then Outcome(e2.(isTorqueEnabled := true), Ok)
      else
        var (e3, reply) := AwaitReply(e2, 0);
        FramesAfterReply(e, e2, e3);
        if reply.None? || reply.value.id != id || reply.value.status != 0 then Outcome(e3, Fail)
        else Outcome(e3.(isTorqueEnabled := true), Ok)
  }

  /**
   `disable_torque`: write 0 to the torque switch. As written, the broadcast
   branch sets the torque flag to TRUE; a unicast clears it on success.
   */
  function DisableTorque(e: Engine, id: byte): (r: Outcome)
    ensures !e.isEnabled ==> r == Outcome(e, Fail)
    ensures e.isEnabled && id == BROADCAST_ID ==> r.status == Ok && r.engine.isTorqueEnabled
    ensures e.isEnabled && id != BROADCAST_ID ==>
      && (r.status == Ok <==> Accepted(Pending(e.port), id, 0))
      && r.engine.isTorqueEnabled == (r.status != Ok && e.isTorqueEnabled)
    ensures e.isEnabled ==> Extends(e.port, r.engine.port) && Frames(Since(e.port, r.engine.port)) == [Encode(id, INST_WRITE, [REG_TORQUE_ENABLE, 0])]
    ensures e.isEnabled ==> !r.engine.isSyncRunning
    ensures e.isEnabled && id == BROADCAST_ID ==> r.engine.port.incoming == e.port.incoming
    ensures e.isEnabled && id != BROADCAST_ID ==> r.engine.port.incoming == Drop(e.port.incoming, 1)
    ensures r.engine.isEnabled == e.isEnabled && r.engine.state == e.state
  {
    if !e.isEnabled then Outcome(e, Fail)
    else
      var e1 := EnableAsyncService(e, false);
      var e2 := WriteRegisterByte(e1, id, REG_TORQUE_ENABLE, 0);
      FramesAfterSend(e, e1, e2, Encode(id, INST_WRITE, [REG_TORQUE_ENABLE, 0]));
      if id == BROADCAST_ID then Outcome(e2.(isTorqueEnabled := true), Ok)
      else
        var (e3, reply) := AwaitReply(e2, 0);
        FramesAfterReply(e, e2, e3);
        if reply.None? || reply.value.id != id || reply.value.status != 0 then Outcome(e3, Fail)
        else Outcome(e3.(isTorqueEnabled := false), Ok)
  }

  /** The torque switch as evidently intended: a broadcast disable leaves torque off. */
  function DisableTorqueIntended(e: Engine, id: byte): (r: Outcome)
    ensures !e.isEnabled ==> r == Outcome(e, Fail)
    ensures e.isEnabled && id == BROADCAST_ID ==> r.status == Ok && !r.engine.isTorqueEnabled
    ensures e.isEnabled && r.status == Ok ==> !r.engine.isTorqueEnabled
    ensures r.engine.isEnabled == e.isEnabled && r.engine.state == e.state
    ensures r.engine.port == DisableTorque(e, id).engine.port && r.status == DisableTorque(e, id).status
  {
    var r := DisableTorque(e, id);
    if e.isEnabled && id == BROADCAST_ID then Outcome(r.engine.(isTorqueEnabled := false), Ok) else r
  }

  /** With torque off, a broadcast disable as written reports torque on; the intended one keeps it off. */
  lemma BroadcastDisableReportsTorqueOn(e: Engine)
    requires e.isEnabled && !e.isTorqueEnabled
    ensures DisableTorque(e, BROADCAST_ID).engine.isTorqueEnabled
    ensures !DisableTorqueIntended(e, BROADCAST_ID).engine.isTorqueEnabled
  {
  }

  /** Suspending the background service writes no frame. */
  lemma SuspendSendsNothing(e: Engine)
    ensures Extends(e.port, EnableAsyncService(e, false).port)
    ensures Frames(Since(e.port, EnableAsyncService(e, false).port)) == []
  {
    var pre := Since(e.port, EnableAsyncService(e, false).port);
    assert pre == [] || pre == [Flush];
  }

  /** Frames-so-far bookkeeping after the suspend step and one written frame. */
  lemma FramesAfterSend(e: Engine, e1: Engine, e2: Engine, f: seq<byte>)
    requires e.isEnabled && e1 == EnableAsyncService(e, false)
    requires e2.port.trace == e1.port.trace + [Flush, Tx(f)]
    ensures Extends(e.port, e2.port) && Frames(Since(e.port, e2.port)) == [f]
  {
    var pre := Since(e.port, e1.port);
    assert pre == [] || pre == [Flush];
    assert Since(e.port, e2.port) == pre + [Flush, Tx(f)];
    FramesAppend(pre, [Flush, Tx(f)]);
    assert Frames(pre) == [];
    assert [Flush, Tx(f)][1..] == [Tx(f)];
    assert Frames([Tx(f)]) == [f] + Frames([]);
  }

  /** Reading a reply adds no frame. */
  lemma FramesAfterReply(e: Engine, e2: Engine, e3: Engine)
    requires Extends(e.port, e2.port)
    requires exists got :: e3.port.trace == e2.port.trace + [Rx(got), Flush]
    ensures Extends(e.port, e3.port) && Frames(Since(e.port, e3.port)) == Frames(Since(e.port, e2.port))
  {
    var got :| e3.port.trace == e2.port.trace + [Rx(got), Flush];
    assert Since(e.port, e3.port) == Since(e.port, e2.port) + [Rx(got), Flush];
    FramesAppend(Since(e.port, e2.port), [Rx(got), Flush]);
    assert [Rx(got), Flush][1..] == [Flush];
  }

  /** With power on and a unicast address, the read asked `id` for `n` bytes at `reg` and took one reply. */
  predicate ReadRequest<T>(e: Engine, r: Reading<T>, id: byte, reg: byte, n: byte)
  {
    e.isEnabled && id != BROADCAST_ID ==>
      && r.engine.port.trace == EnableAsyncService(e, false).port.trace
           + ExchangeEvents(Encode(id, INST_READ, [reg, n]), Take(Pending(e.port), n + 6))
      && r.engine.port.incoming == Drop(e.port.incoming, 1)
  }

  /** `get_position`: the present-position word, read synchronously. */
  function GetPosition(e: Engine, id: byte): (r: Reading<u16>)
    ensures !e.isEnabled ==> r == Reading(e, None)
    ensures r.value.Some? <==> e.isEnabled && id != BROADCAST_ID && Accepted(Pending(e.port), id, 2)
    ensures r.value.Some? ==> r.value.value == Word(Pending(e.port)[5], Pending(e.port)[6])
    ensures KeepsCache(e, r.engine) && (e.isEnabled ==> !r.engine.isSyncRunning)
    ensures ReadRequest(e, r, id, REG_PRESENT_POSITION_L, 2)
  {
    if !e.isEnabled then Reading(e, None)
    else ReadRegisterWord(EnableAsyncService(e, false), id, REG_PRESENT_POSITION_L)
  }

  /**
   Sign-magnitude decoding as written: reinterpret as `s16`, and when bit
   `mask` is set, clear it and negate, truncating back to 16 bits.
   */
  function SignMagnitude(raw: u16, mask: int): s16
    requires mask == 0x400 || mask == 0x8000
  {
    var v := ToS16(raw);
    if (raw / mask) % 2 == 1 then ToS16(-(v - mask)) else v
  }

  /** Velocity and current: bit 15 is the sign, the low 15 bits the magnitude. */
  function VelocityFromRaw(raw: u16): (v: s16)
    ensures v == if raw >= 0x8000 then -(raw - 0x8000) else raw
  {
    SignMagnitude(raw, 0x8000)
  }

  /** Load: bit 10 is the sign; below 2048 the value is a 10-bit magnitude with a sign. */
  function LoadFromRaw(raw: u16): (v: s16)
    ensures raw < 0x8000 ==> v == if (raw / 0x400) % 2 == 1 then -(raw - 0x400) else raw
    ensures raw < 2048 ==> v == if raw < 1024 then raw else -(raw - 1024)
  {
    SignMagnitude(raw, 0x400)
  }

  /** `get_velocity`: the present-speed word, decoded as sign and magnitude. */
  function GetVelocity(e: Engine, id: byte): (r: Reading<s16>)
    ensures !e.isEnabled ==> r == Reading(e, None)
    ensures r.value.Some? <==> e.isEnabled && id != BROADCAST_ID && Accepted(Pending(e.port), id, 2)
    ensures r.value.Some? ==> r.value.value == VelocityFromRaw(Word(Pending(e.port)[5], Pending(e.port)[6]))
    ensures KeepsCache(e, r.engine) && (e.isEnabled ==> !r.engine.isSyncRunning)
    ensures ReadRequest(e, r, id, REG_PRESENT_SPEED_L, 2)
  {
    if !e.isEnabled then Reading(e, None)
    else
      var w := ReadRegisterWord(EnableAsyncService(e, false), id, REG_PRESENT_SPEED_L);
      if w.value.None? then Reading(w.engine, None) else Reading(w.engine, Some(VelocityFromRaw(w.value.value)))
  }

  /** `get_load`: the present-load word, with bit 10 as its sign. */
  function GetLoad(e: Engine, id: byte): (r: Reading<s16>)
    ensures !e.isEnabled ==> r == Reading(e, None)
    ensures r.value.Some? <==> e.isEnabled && id != BROADCAST_ID && Accepted(Pending(e.port), id, 2)
    ensures r.value.Some? ==> r.value.value == LoadFromRaw(Word(Pending(e.port)[5], Pending(e.port)[6]))
    ensures KeepsCache(e, r.engine) && (e.isEnabled ==> !r.engine.isSyncRunning)
    ensures ReadRequest(e, r, id, REG_PRESENT_LOAD_L, 2)
  {
    if !e.isEnabled then Reading(e, None)
    else
      var w := ReadRegisterWord(EnableAsyncService(e, false), id, REG_PRESENT_LOAD_L);
      if w.value.None? then Reading(w.engine, None) else Reading(w.engine, Some(LoadFromRaw(w.value.value)))
  }

  /** `get_current`: the present-current word, decoded like the velocity. */
  function GetCurrent(e: Engine, id: byte): (r: Reading<s16>)
    ensures !e.isEnabled ==> r == Reading(e, None)
    ensures r.value.Some? <==> e.isEnabled && id != BROADCAST_ID && Accepted(Pending(e.port), id, 2)
    ensures r.value.Some? ==> r.value.value == VelocityFromRaw(Word(Pending(e.port)[5], Pending(e.port)[6]))
    ensures KeepsCache(e, r.engine) && (e.isEnabled ==> !r.engine.isSyncRunning)
    ensures ReadRequest(e, r, id, REG_PRESENT_CURRENT_L, 2)
  {
    if !e.isEnabled then Reading(e, None)
    else
      var w := ReadRegisterWord(EnableAsyncService(e, false), id, REG_PRESENT_CURRENT_L);
      if w.value.None? then Reading(w.engine, None) else Reading(w.engine, Some(VelocityFromRaw(w.value.value)))
  }

  /** The one-byte synchronous reads: voltage, temperature and the moving flag. */
  function GetByteRegister(e: Engine, id: byte, reg: byte): (r: Reading<byte>)
    ensures !e.isEnabled ==> r == Reading(e, None)
    ensures r.value.Some? <==> e.isEnabled && id != BROADCAST_ID && Accepted(Pending(e.port), id, 1)
    ensures r.value.Some? ==> r.value.value == Pending(e.port)[5]
    ensures KeepsCache(e, r.engine) && (e.isEnabled ==> !r.engine.isSyncRunning)
    ensures ReadRequest(e, r, id, reg, 1)
  {
    if !e.isEnabled then Reading(e, None)
    else ReadRegisterByte(EnableAsyncService(e, false), id, reg)
  }

  /** `get_voltage`. */
  function GetVoltage(e: Engine, id: byte): (r: Reading<byte>)
    ensures !e.isEnabled ==> r == Reading(e, None)
    ensures r.value.Some? <==> e.isEnabled && id != BROADCAST_ID && Accepted(Pending(e.port), id, 1)
    ensures r.value.Some? ==> r.value.value == Pending(e.port)[5]
    ensures ReadRequest(e, r, id, REG_PRESENT_VOLTAGE, 1)
    ensures KeepsCache(e, r.engine) && (e.isEnabled ==> !r.engine.isSyncRunning)
  {
    GetByteRegister(e, id, REG_PRESENT_VOLTAGE)
  }

  /** `get_temperature`. */
  function GetTemperature(e: Engine, id: byte): (r: Reading<byte>)
    ensures !e.isEnabled ==> r == Reading(e, None)
    ensures r.value.Some? <==> e.isEnabled && id != BROADCAST_ID && Accepted(Pending(e.port), id, 1)
    ensures r.value.Some? ==> r.value.value == Pending(e.port)[5]
    ensures ReadRequest(e, r, id, REG_PRESENT_TEMPERATURE, 1)
    ensures KeepsCache(e, r.engine) && (e.isEnabled ==> !r.engine.isSyncRunning)
  {
    GetByteRegister(e, id, REG_PRESENT_TEMPERATURE)
  }

  /** `get_move`. */
  function GetMove(e: Engine, id: byte): (r: Reading<byte>)
    ensures !e.isEnabled ==> r == Reading(e, None)
    ensures r.value.Some? <==> e.isEnabled && id != BROADCAST_ID && Accepted(Pending(e.port), id, 1)
    ensures r.value.Some? ==> r.value.value == Pending(e.port)[5]
    ensures ReadRequest(e, r, id, REG_MOVING, 1)
    ensures KeepsCache(e, r.engine) && (e.isEnabled ==> !r.engine.isSyncRunning)
  {
    GetByteRegister(e, id, REG_MOVING)
  }

  /** `unlock_eeprom` (`lock == 0`) and `lock_eeprom` (`lock == 1`): write the lock byte and await the acknowledgement. */
  function WriteLock(e: Engine, id: byte, lock: byte): (r: Outcome)
    ensures !e.isEnabled ==> r == Outcome(e, Fail)
    ensures e.isEnabled ==>
      && r.engine.port.trace == EnableAsyncService(e, false).port.trace
           + ExchangeEvents(Encode(id, INST_WRITE, [REG_LOCK, lock]), Take(Pending(e.port), 6))
      && r.engine.port.incoming == Drop(e.port.incoming, 1)
      && (r.status == Ok <==> Accepted(Pending(e.port), id, 0))
      && !r.engine.isSyncRunning
    ensures Extends(e.port, r.engine.port)
    ensures Frames(Since(e.port, r.engine.port)) == if e.isEnabled then [Encode(id, INST_WRITE, [REG_LOCK, lock])] else []
    ensures KeepsCache(e, r.engine)
  {
    if !e.isEnabled then Outcome(e, Fail)
    else
      var e1 := EnableAsyncService(e, false);
      var r := Exchange(e1, id, INST_WRITE, [REG_LOCK, lock]);
      var e2 := SendFrame(e1, id, INST_WRITE, [REG_LOCK, lock]);
      FramesAfterSend(e, e1, e2, Encode(id, INST_WRITE, [REG_LOCK, lock]));
      FramesAfterReply(e, e2, r.engine);
      r
  }

  /** `unlock_eeprom`: clear the lock register, so that the ID can be rewritten; even broadcast is sent. */
  function UnlockEeprom(e: Engine, id: byte): (r: Outcome)
    ensures !e.isEnabled ==> r == Outcome(e, Fail)
    ensures e.isEnabled ==> (r.status == Ok <==> Accepted(Pending(e.port), id, 0))
    ensures e.isEnabled ==>
      && r.engine.port.trace == EnableAsyncService(e, false).port.trace
           + ExchangeEvents(Encode(id, INST_WRITE, [REG_LOCK, 0]), Take(Pending(e.port), 6))
      && r.engine.port.incoming == Drop(e.port.incoming, 1)
      && !r.engine.isSyncRunning
    ensures Extends(e.port, r.engine.port)
    ensures Frames(Since(e.port, r.engine.port)) == if e.isEnabled then [Encode(id, INST_WRITE, [REG_LOCK, 0])] else []
    ensures KeepsCache(e, r.engine)
  {
    WriteLock(e, id, 0)
  }

  /** `lock_eeprom`: set the lock register again; even broadcast is sent. */
  function LockEeprom(e: Engine, id: byte): (r: Outcome)
    ensures !e.isEnabled ==> r == Outcome(e, Fail)
    ensures e.isEnabled ==> (r.status == Ok <==> Accepted(Pending(e.port), id, 0))
    ensures e.isEnabled ==>
      && r.engine.port.trace == EnableAsyncService(e, false).port.trace
           + ExchangeEvents(Encode(id, INST_WRITE, [REG_LOCK, 1]), Take(Pending(e.port), 6))
      && r.engine.port.incoming == Drop(e.port.incoming, 1)
      && !r.engine.isSyncRunning
    ensures Extends(e.port, r.engine.port)
    ensures Frames(Since(e.port, r.engine.port)) == if e.isEnabled then [Encode(id, INST_WRITE, [REG_LOCK, 1])] else []
    ensures KeepsCache(e, r.engine)
  {
    WriteLock(e, id, 1)
  }

  /**
   `setID`: unlock the old address, write the new ID into it, lock the new
   address. The results of the three steps are ignored: with power on it
   always reports success.
   */
  function SetId(e: Engine, id: byte, newId: byte): (r: Outcome)
    ensures !e.isEnabled ==> r == Outcome(e, Fail)
    ensures e.isEnabled ==> r.status == Ok && !r.engine.isSyncRunning
    ensures e.isEnabled ==> r.engine.port.incoming == Drop(e.port.incoming, 2)
    ensures KeepsCache(e, r.engine)
  {
    if !e.isEnabled then Outcome(e, Fail)
    else
      var e1 := EnableAsyncService(e, false);
      var e2 := UnlockEeprom(e1, id).engine;
      var e3 := WriteRegisterByte(e2, id, REG_ID, newId);
      var e4 := LockEeprom(e3, newId).engine;
      Outcome(e4, Ok)
  }

  lemma FramesOfExchange(f: seq<byte>, got: seq<byte>)
    ensures Frames(ExchangeEvents(f, got)) == [f]
  {
    assert [Flush][1..] == [];
    assert Frames([Flush]) == [];
    assert [Rx(got), Flush][1..] == [Flush];
    assert Frames([Rx(got), Flush]) == [];
    assert [Tx(f), Rx(got), Flush][1..] == [Rx(got), Flush];
    assert Frames([Tx(f), Rx(got), Flush]) == [f];
    assert ExchangeEvents(f, got)[1..] == [Tx(f), Rx(got), Flush];
  }

  lemma FramesOfSend(f: seq<byte>)
    ensures Frames([Flush, Tx(f)]) == [f]
  {
    assert [Flush, Tx(f)][1..] == [Tx(f)];
    assert [Tx(f)][1..] == [];
    assert Frames([Tx(f)]) == [f];
  }

  /**
   With power on, `setID` sends exactly three frames, whatever the servos
   answer: unlock at the old address, the ID write to the old address, lock
   at the new address.
   */
  lemma SetIdFrames(e: Engine, id: byte, newId: byte)
    requires e.isEnabled
    ensures Extends(e.port, SetId(e, id, newId).engine.port)
    ensures Frames(Since(e.port, SetId(e, id, newId).engine.port))
         == [Encode(id, INST_WRITE, [REG_LOCK, 0]), Encode(id, INST_WRITE, [REG_ID, newId]),
             Encode(newId, INST_WRITE, [REG_LOCK, 1])]
  {
    var e1 := EnableAsyncService(e, false);
    var e2 := UnlockEeprom(e1, id).engine;
    var e3 := WriteRegisterByte(e2, id, REG_ID, newId);
    var e4 := LockEeprom(e3, newId).engine;
    assert SetId(e, id, newId).engine == e4;
    SuspendSendsNothing(e);
    StoppedWriteLock(e1, id, 0);
    StoppedWriteLock(e3, newId, 1);
    ThreeStepTrace(e.port, e1.port, e4.port,
      Encode(id, INST_WRITE, [REG_LOCK, 0]), Take(Pending(e1.port), 6),
      Encode(id, INST_WRITE, [REG_ID, newId]),
      Encode(newId, INST_WRITE, [REG_LOCK, 1]), Take(Pending(e3.port), 6));
  }

  /** A silent prefix, an exchange, a plain send and another exchange put exactly those three frames on the wire. */
  lemma ThreeStepTrace(p: Port, p1: Port, p4: Port,
                       f1: seq<byte>, g1: seq<byte>, f2: seq<byte>, f3: seq<byte>, g3: seq<byte>)
    requires Extends(p, p1) && Frames(Since(p, p1)) == []
    requires p4.trace == p1.trace + ExchangeEvents(f1, g1) + [Flush, Tx(f2)] + ExchangeEvents(f3, g3)
    ensures Extends(p, p4) && Frames(Since(p, p4)) == [f1, f2, f3]
  {
    var pre := Since(p, p1);
    var a := ExchangeEvents(f1, g1);
    var b := [Flush, Tx(f2)];
    var c := ExchangeEvents(f3, g3);
    assert p1.trace == p.trace + pre;
    SinceOfAppends(p.trace, pre, a, b, c);
    AppendedEvents(p, p4, pre + a + b + c);
    FramesOfThreeSteps(pre, f1, g1, f2, f3, g3);
  }

  /** `unlock_eeprom`/`lock_eeprom` on a powered engine whose service is already suspended. */
  lemma StoppedWriteLock(e: Engine, id: byte, lock: byte)
    requires e.isEnabled && !e.isSyncRunning
    ensures var r := WriteLock(e, id, lock).engine;
      && r.port.trace == e.port.trace + ExchangeEvents(Encode(id, INST_WRITE, [REG_LOCK, lock]), Take(Pending(e.port), 6))
      && r.isEnabled && !r.isSyncRunning
  {
    assert EnableAsyncService(e, false) == e;
  }

  lemma SinceOfAppends(t: seq<Event>, pre: seq<Event>, a: seq<Event>, b: seq<Event>, c: seq<Event>)
    ensures (t + pre + a + b + c)[|t|..] == pre + a + b + c
  {
  }

  lemma FramesOfThreeSteps(pre: seq<Event>, f1: seq<byte>, g1: seq<byte>, f2: seq<byte>, f3: seq<byte>, g3: seq<byte>)
    requires Frames(pre) == []
    ensures Frames(pre + ExchangeEvents(f1, g1) + [Flush, Tx(f2)] + ExchangeEvents(f3, g3)) == [f1, f2, f3]
  {
    var a := ExchangeEvents(f1, g1);
    var b := [Flush, Tx(f2)];
    var c := ExchangeEvents(f3, g3);
    FramesAppend(pre + a + b, c);
    FramesAppend(pre + a, b);
    FramesAppend(pre, a);
    FramesOfExchange(f1, g1);
    FramesOfExchange(f3, g3);
    FramesOfSend(f2);
  }

  /**
   `checkPosition`: its comparison is commented out. Without power it returns
   the failure code converted to `bool`, which is `true` for the non-zero
   failure code; otherwise it suspends the service and answers `false`.
   */
  function CheckPosition(e: Engine, id: byte, position: u16, accuracy: int): (r: (Engine, bool))
    ensures !e.isEnabled ==> r == (e, true)
    ensures e.isEnabled ==> !r.1 && r.0 == EnableAsyncService(e, false)
  {
    if !e.isEnabled then (e, true)
    else (EnableAsyncService(e, false), false)
  }
}

=== FILE: uart.dfy ===
/**
 The half-duplex servo UART, reduced to what the engine can observe: a trace of
 what it did to the port (frames written, bytes read, receive buffer flushed)
 and the queue of byte chunks that successive reads will find waiting.

 Each chunk in `incoming` stands for whatever arrives between one read and the
 previous one; a read takes at most the number of bytes it asks for from the
 next chunk (the rest is lost to the flush that always follows), and an empty
 or missing chunk is a timeout.
 */
module Uart {
  import opened Wire

  datatype Event = Tx(frame: seq<byte>) | Rx(got: seq<byte>) | Flush

  datatype Port = Port(trace: seq<Event>, incoming: seq<seq<byte>>)

  /** `uart_write_bytes`: the whole buffer goes on the wire. */
  function Write(p: Port, bytes: seq<byte>): (r: Port)
    ensures r.trace == p.trace + [Tx(bytes)] && r.incoming == p.incoming
  {
    p.(trace := p.trace + [Tx(bytes)])
  }

  /** `uart_flush`: unread input is discarded. */
  function Discard(p: Port): (r: Port)
    ensures r.trace == p.trace + [Flush] && r.incoming == p.incoming
  {
    p.(trace := p.trace + [Flush])
  }

  /** The chunk the next read will see; nothing (a timeout) when none is queued. */
  function Pending(p: Port): seq<byte>
  {
    if |p.incoming| > 0 then p.incoming[0] else []
  }

  /** The `k`-th chunk still to come, counting from zero. */
  function Chunk(incoming: seq<seq<byte>>, k: nat): seq<byte>
  {
    if k < |incoming| then incoming[k] else []
  }

  /** The queue after `k` reads. */
  function Drop(incoming: seq<seq<byte>>, k: nat): (r: seq<seq<byte>>)
    ensures forall j: nat :: Chunk(r, j) == Chunk(incoming, k + j)
  {
    if k >= |incoming| then [] else incoming[k..]
  }

  /** `uart_read_bytes(port, buffer, max, timeout)`: the bytes read, at most `max`. */
  function Read(p: Port, max: nat): (r: (Port, seq<byte>))
    ensures r.1 == Take(Pending(p), max) && |r.1| <= max
    ensures r.0.trace == p.trace + [Rx(r.1)]
    ensures r.0.incoming == Drop(p.incoming, 1)
  {
    var got := Take(Pending(p), max);
    (Port(p.trace + [Rx(got)], Drop(p.incoming, 1)), got)
  }

  /** `after` is `before` with events appended and input possibly consumed. */
  predicate Extends(before: Port, after: Port)
  {
    |before.trace| <= |after.trace| && after.trace[..|before.trace|] == before.trace
  }

  /** The events appended between two states of the port. */
  function Since(before: Port, after: Port): seq<Event>
    requires Extends(before, after)
  {
    after.trace[|before.trace|..]
  }

  lemma AppendedEvents(before: Port, after: Port, events: seq<Event>)
    requires after.trace == before.trace + events
    ensures Extends(before, after) && Since(before, after) == events
  {
  }

  /** Event logs concatenate along a chain of extensions. */
  lemma SinceSplit(a: Port, b: Port, c: Port)
    requires Extends(a, b) && Extends(b, c)
    ensures Extends(a, c) && Since(a, c) == Since(a, b) + Since(b, c)
  {
  }

  /** One more read after `k` reads. */
  lemma DropDrop(incoming: seq<seq<byte>>, k: nat)
    ensures Drop(Drop(incoming, k), 1) == Drop(incoming, k + 1)
  {
  }

  /** The frames written in a sequence of events, in order. */
  function Frames(events: seq<Event>): (r: seq<seq<byte>>)
    ensures |r| <= |events|
  {
    if |events| == 0 then []
    else (if events[0].Tx? then [events[0].frame] else []) + Frames(events[1..])
  }

  lemma {:induction false} FramesAppend(a: seq<Event>, b: seq<Event>)
    ensures Frames(a + b) == Frames(a) + Frames(b)
  {
    if |a| == 0 {
      assert a + b == b;
    } else {
      var head := if a[0].Tx? then [a[0].frame] else [];
      assert (a + b)[0] == a[0];
      assert (a + b)[1..] == a[1..] + b;
      FramesAppend(a[1..], b);
      assert Frames(a + b) == head + Frames(a[1..] + b);
      assert Frames(a) == head + Frames(a[1..]);
    }
  }
}

=== FILE: wire.dfy ===
/**
 Byte-level vocabulary shared by every part of the model: the C integer
 widths the firmware uses, an Option type for "no value", and the modular
 byte sum that both checksums in the system are built from.
 */
module Wire {

  /** An unsigned 8-bit value (`u8`). */
  type byte = x: int | 0 <= x < 0x100

  /** An unsigned 16-bit value (`u16`). */
  type u16 = x: int | 0 <= x < 0x1_0000

  /** A signed 16-bit value (`s16`). */
  type s16 = x: int | -0x8000 <= x < 0x8000

  datatype Option<+T> = None | Some(value: T)

  /** The sum of a byte sequence, as an unbounded integer. */
  function Sum(s: seq<byte>): nat
  {
    if |s| == 0 then 0 else s[0] + Sum(s[1..])
  }

  lemma {:induction false} SumAppend(a: seq<byte>, b: seq<byte>)
    ensures Sum(a + b) == Sum(a) + Sum(b)
  {
    if |a| == 0 {
      assert a + b == b;
    } else {
      assert (a + b)[1..] == a[1..] + b;
      SumAppend(a[1..], b);
    }
  }

  /** Replacing one byte changes the sum by exactly the difference. */
  lemma {:induction false} SumUpdate(s: seq<byte>, i: nat, v: byte)
    requires i < |s|
    ensures Sum(s[i := v]) == Sum(s) - s[i] + v
  {
    if i > 0 {
      assert s[i := v][1..] == s[1..][i - 1 := v];
      SumUpdate(s[1..], i - 1, v);
    }
  }

  /** Adding a non-zero amount smaller than 256 in magnitude always changes a sum modulo 256. */
  lemma ModShift(total: int, d: int)
    requires -0x100 < d < 0x100 && d != 0
    ensures (total + d) % 0x100 != total % 0x100
  {
    var q := total / 0x100;
    var r := total % 0x100;
    assert total == 0x100 * q + r;
    if 0 <= r + d < 0x100 {
      assert total + d == 0x100 * q + (r + d);
    } else if r + d >= 0x100 {
      assert total + d == 0x100 * (q + 1) + (r + d - 0x100);
    } else {
      assert total + d == 0x100 * (q - 1) + (r + d + 0x100);
    }
  }

  /** Conversion of any integer to `s16` by two's-complement truncation. */
  function ToS16(x: int): (r: s16)
    ensures (r - x) % 0x1_0000 == 0
  {
    var m := x % 0x1_0000;
    if m >= 0x8000 then m - 0x1_0000 else m
  }

  /** The high byte of a 16-bit word (`w >> 8`). */
  function Hi(w: u16): byte { w / 0x100 }

  /** The low byte of a 16-bit word (`w & 0xFF`). */
  function Lo(w: u16): byte { w % 0x100 }

  /** The big-endian word `hi << 8 | lo`. */
  function Word(hi: byte, lo: byte): (w: u16)
    ensures Hi(w) == hi && Lo(w) == lo
  {
    hi * 0x100 + lo
  }

  lemma WordOfBytes(w: u16)
    ensures Word(Hi(w), Lo(w)) == w
  {
  }

  /** The first `n` elements of `s`, or all of `s` when it is shorter. */
  function Take<T>(s: seq<T>, n: nat): (r: seq<T>)
    ensures |r| == if |s| <= n then |s| else n
    ensures r == s[..|r|]
  {
    if |s| <= n then s else s[..n]
  }

  /** `n` zero bytes. */
  function Zeros(n: nat): (r: seq<byte>)
    ensures |r| == n && forall i :: 0 <= i < n ==> r[i] == 0
  {
    seq(n, _ => 0)
  }
}

=== FILE: worker.dfy ===
/**
 The background service: while the rail is powered and the service runs, each
 cycle takes in the feedback reply of the servo polled last time, broadcasts
 every goal position in one sync-write frame, advances the round-robin cursor
 and asks the next servo for its position, speed and load.
 */
module Worker {
  import opened Wire
  import opened Frame
  import opened Uart
  import opened Servos
  import AsyncApi

  /** The `Length` byte of a sync write of two bytes to twelve servos: (2 + 1) * 12 + 4. */
  const SYNC_LENGTH: byte := 40

  /** The addresses `set_position_all` uses, whatever the cache says. */
  const STATIC_IDS: seq<byte> := [1, 2, 3, 4, 5, 6, 7, 8, 9, 10, 11, 12]

  /** The address of every cache record, in order. */
  function Ids(c: Cache): (ids: seq<byte>)
    ensures |ids| == 12 && forall i :: 0 <= i < 12 ==> ids[i] == c[i].id
  {
    seq(12, i requires 0 <= i < 12 => c[i].id)
  }

  /** The goal of every cache record, in order. */
  function Goals(c: Cache): (goals: seq<u16>)
    ensures |goals| == 12 && forall i :: 0 <= i < 12 ==> goals[i] == c[i].goalPosition
  {
    seq(12, i requires 0 <= i < 12 => c[i].goalPosition)
  }

  /** The per-servo part of a sync write: address, goal high byte, goal low byte. */
  function SyncPayload(ids: seq<byte>, goals: seq<u16>): (p: seq<byte>)
    requires |ids| == |goals|
    ensures |p| == 3 * |ids|
    ensures forall i :: 0 <= i < |ids| ==>
      p[3 * i] == ids[i] && p[3 * i + 1] == Hi(goals[i]) && p[3 * i + 2] == Lo(goals[i])
  {
    if |ids| == 0 then []
    else
      var rest := SyncPayload(ids[1..], goals[1..]);
      var p := [ids[0], Hi(goals[0]), Lo(goals[0])] + rest;
      assert forall i :: 1 <= i < |ids| ==> p[3 * i] == rest[3 * (i - 1)];
      p
  }

  /** The 44-byte sync-write frame `sync_all_goal_position` and `set_position_all` build. */
  function SyncWriteFrame(ids: seq<byte>, goals: seq<u16>): (f: seq<byte>)
    requires |ids| == 12 && |goals| == 12
    ensures |f| == 44
    ensures f[..7] == [HEADER, HEADER, BROADCAST_ID, SYNC_LENGTH, INST_SYNC_WRITE, REG_GOAL_POSITION_L, 2]
    ensures forall i :: 0 <= i < 12 ==> f[7 + 3 * i] == ids[i] && Word(f[8 + 3 * i], f[9 + 3 * i]) == goals[i]
    ensures f == Encode(BROADCAST_ID, INST_SYNC_WRITE, [REG_GOAL_POSITION_L, 2] + SyncPayload(ids, goals))

  {
    var payload := SyncPayload(ids, goals);
    var body := [BROADCAST_ID, SYNC_LENGTH, INST_SYNC_WRITE, REG_GOAL_POSITION_L, 2] + payload;
    var f := [HEADER, HEADER] + body + [Checksum(body)];
    assert body == Body(BROADCAST_ID, INST_SYNC_WRITE, [REG_GOAL_POSITION_L, 2] + payload);
    forall i | 0 <= i < 12
      ensures f[7 + 3 * i] == ids[i] && Word(f[8 + 3 * i], f[9 + 3 * i]) == goals[i]
    {
      assert f[7 + 3 * i] == payload[3 * i];
      WordOfBytes(goals[i]);
    }
    f
  }

  /** `sync_all_goal_position`: broadcast every cached goal to its servo; no flush, no reply. */
  function SyncAllGoalPosition(e: Engine): (r: Engine)
    ensures r.state == e.state && r.port.incoming == e.port.incoming
    ensures r.isEnabled == e.isEnabled && r.isTorqueEnabled == e.isTorqueEnabled && r.isSyncRunning == e.isSyncRunning
    ensures r.port.trace == e.port.trace + [Tx(SyncWriteFrame(Ids(e.state), Goals(e.state)))]
  {
    e.(port := Write(e.port, SyncWriteFrame(Ids(e.state), Goals(e.state))))
  }

  /**
   `set_position_all`: suspend the service, then broadcast the given goals to
   addresses 1..12. There is no power check: the frame goes out even with the
   rail off.
   */
  function SetPositionAll(e: Engine, positions: seq<u16>): (r: Engine)
    requires |positions| == 12
    ensures r.state == e.state && r.isEnabled == e.isEnabled && r.isTorqueEnabled == e.isTorqueEnabled
    ensures e.isEnabled ==> !r.isSyncRunning
    ensures !e.isEnabled ==> r.port.trace == e.port.trace + [Tx(SyncWriteFrame(STATIC_IDS, positions))]
    ensures Extends(e.port, r.port) && Frames(Since(e.port, r.port)) == [SyncWriteFrame(STATIC_IDS, positions)]
  {
    var e1 := EnableAsyncService(e, false);
    var r := e1.(port := Write(e1.port, SyncWriteFrame(STATIC_IDS, positions)));
    SuspendSendsNothing(e);
    FramesAppend(Since(e.port, e1.port), [Tx(SyncWriteFrame(STATIC_IDS, positions))]);
    assert Since(e.port, r.port) == Since(e.port, e1.port) + [Tx(SyncWriteFrame(STATIC_IDS, positions))];
    r
  }

  /** With the standard addresses in the cache, the background sync and `set_position_all` send the same frame. */
  lemma SyncFramesAgree(e: Engine, positions: seq<u16>)
    requires |positions| == 12
    requires forall i :: 0 <= i < 12 ==> e.state[i].id == i + 1 && e.state[i].goalPosition == positions[i]
    ensures SyncWriteFrame(Ids(e.state), Goals(e.state)) == SyncWriteFrame(STATIC_IDS, positions)
  {
    assert Ids(e.state) == STATIC_IDS;
    assert Goals(e.state) == positions;
  }

  /** The 8-byte request for six bytes from the present-position register on. */
  function FeedbackRequest(id: byte): (f: seq<byte>)
    ensures |f| == 8
    ensures f == Encode(id, INST_READ, [REG_PRESENT_POSITION_L, 6])
  {
    var body := [id, 4, INST_READ, REG_PRESENT_POSITION_L, 6];
    assert body == Body(id, INST_READ, [REG_PRESENT_POSITION_L, 6]);
    [HEADER, HEADER] + body + [Checksum(body)]
  }

  /** `cmd_feedback_one_servo`: send the request, then flush. */
  function CmdFeedback(e: Engine, k: Index): (r: Engine)
    ensures r == e.(port := r.port) && r.port.incoming == e.port.incoming
    ensures r.port.trace == e.port.trace + [Tx(FeedbackRequest(e.state[k].id)), Flush]
  {
    e.(port := Discard(Write(e.port, FeedbackRequest(e.state[k].id))))
  }

  /** The checks `ack_feedback_one_servo` makes on what it read. */
  predicate FeedbackValid(got: seq<byte>, id: byte)
  {
    && |got| == 12
    && got[0] == HEADER && got[1] == HEADER && got[2] == id && got[3] == 8 && got[4] == 0
    && got[11] == Checksum(got[2..11])
  }

  /** Those checks accept exactly the bytes the generic decoder accepts as a six-byte success reply from `id`. */
  lemma FeedbackValidIsAccepted(chunk: seq<byte>, id: byte)
    ensures FeedbackValid(Take(chunk, 12), id) <==> Accepted(chunk, id, 6)
  {
  }

  /** The record after a valid feedback reply: three big-endian words, reinterpreted as signed where the field is. */
  function Refreshed(s: ServoState, got: seq<byte>): (t: ServoState)
    requires |got| == 12
  {
    s.(presentPosition := Word(got[5], got[6]),
       presentVelocity := ToS16(Word(got[7], got[8])),
       presentLoad := ToS16(Word(got[9], got[10])))
  }

  /**
   `ack_feedback_one_servo`: read up to twelve bytes; if they are a valid reply
   from the record's servo, store its position, velocity and load; flush.
   */
  function AckFeedback(e: Engine, k: Index): (r: Engine)
    ensures r.isEnabled == e.isEnabled && r.isTorqueEnabled == e.isTorqueEnabled && r.isSyncRunning == e.isSyncRunning
    ensures r.port.trace == e.port.trace + [Rx(Take(Pending(e.port), 12)), Flush]
    ensures r.port.incoming == Drop(e.port.incoming, 1)
    ensures forall i :: 0 <= i < 12 && i != k ==> r.state[i] == e.state[i]
    ensures !Accepted(Pending(e.port), e.state[k].id, 6) ==> r.state[k] == e.state[k]
    ensures Accepted(Pending(e.port), e.state[k].id, 6) ==>
      var got := Pending(e.port);
      r.state[k] == e.state[k].(presentPosition := Word(got[5], got[6]),
                                presentVelocity := ToS16(Word(got[7], got[8])),
                                presentLoad := ToS16(Word(got[9], got[10])))
    ensures r.state[k].id == e.state[k].id && r.state[k].goalPosition == e.state[k].goalPosition
  {
    var (p, got) := Read(e.port, 12);
    FeedbackValidIsAccepted(Pending(e.port), e.state[k].id);
    var state := if FeedbackValid(got, e.state[k].id) then e.state[k := Refreshed(e.state[k], got)] else e.state;
    e.(state := state, port := Discard(p))
  }

  /**
   A reply encoding velocity -5 in sign and magnitude (raw 0x8005) is stored
   as -32763: unlike `get_velocity`, the feedback path applies no sign decoding.
   */
  lemma AckSkipsSignDecoding(e: Engine, k: Index)
    requires Pending(e.port) == Encode(e.state[k].id, 0, [0, 0, 0x80, 0x05, 0, 0])
    ensures AckFeedback(e, k).state[k].presentVelocity == -32763
    ensures VelocityFromRaw(0x8005) == -5
  {
    var got := Pending(e.port);
    DecodeEncode(e.state[k].id, 0, [0, 0, 0x80, 0x05, 0, 0]);
    assert Take(got, 12) == got;
    assert got[7] == 0x80 && got[8] == 0x05;
  }

  /** The round-robin successor of a record index. */
  function Next(cursor: Index): Index
  {
    (cursor + 1) % 12
  }

  /** One pass of the service task body; `cursor` is the task's round-robin index. */
  function Cycle(e: Engine, cursor: Index): (r: (Engine, Index))
    ensures !(e.isEnabled && e.isSyncRunning) ==> r == (e, cursor)
    ensures e.isEnabled && e.isSyncRunning ==> r.1 == Next(cursor)
    ensures r.0.isEnabled == e.isEnabled && r.0.isTorqueEnabled == e.isTorqueEnabled && r.0.isSyncRunning == e.isSyncRunning
    ensures Ids(r.0.state) == Ids(e.state) && Goals(r.0.state) == Goals(e.state)
    ensures forall i :: 0 <= i < 12 && i != cursor ==> r.0.state[i] == e.state[i]
    ensures Extends(e.port, r.0.port)
    ensures e.isEnabled && e.isSyncRunning ==>
      && Frames(Since(e.port, r.0.port)) == [SyncWriteFrame(Ids(e.state), Goals(e.state)), FeedbackRequest(e.state[r.1].id)]
      && r.0.port.incoming == Drop(e.port.incoming, 1)
      && r.0.state[cursor] == AckFeedback(e, cursor).state[cursor]
  {
    if !(e.isEnabled && e.isSyncRunning) then (e, cursor)
    else
      RunningCycleEffect(e, cursor);
      (RunningCycle(e, cursor), Next(cursor))
  }

  /** The three steps of a running cycle: take in feedback, sync the goals, poll the next record. */
  function RunningCycle(e: Engine, cursor: Index): Engine
  {
    CmdFeedback(SyncAllGoalPosition(AckFeedback(e, cursor)), Next(cursor))
  }

  lemma RunningCycleEffect(e: Engine, cursor: Index)
    ensures var r := RunningCycle(e, cursor);
      && r.isEnabled == e.isEnabled && r.isTorqueEnabled == e.isTorqueEnabled && r.isSyncRunning == e.isSyncRunning
      && r.state == AckFeedback(e, cursor).state
      && Ids(r.state) == Ids(e.state) && Goals(r.state) == Goals(e.state)
      && Extends(e.port, r.port)
      && Frames(Since(e.port, r.port))
         == [SyncWriteFrame(Ids(e.state), Goals(e.state)), FeedbackRequest(e.state[Next(cursor)].id)]
      && r.port.incoming == Drop(e.port.incoming, 1)
  {
    var e1 := AckFeedback(e, cursor);
    AckKeepsTargets(e, cursor);
    var e2 := SyncAllGoalPosition(e1);
    var r := RunningCycle(e, cursor);
    var got := Take(Pending(e.port), 12);
    var sync := SyncWriteFrame(Ids(e.state), Goals(e.state));
    var request := FeedbackRequest(e.state[Next(cursor)].id);
    AppendedEvents(e.port, e1.port, [Rx(got), Flush]);
    AppendedEvents(e1.port, e2.port, [Tx(sync)]);
    AppendedEvents(e2.port, r.port, [Tx(request), Flush]);
    SinceSplit(e.port, e1.port, e2.port);
    SinceSplit(e.port, e2.port, r.port);
    FramesOfCycle(got, sync, request);
  }

  lemma AckKeepsTargets(e: Engine, cursor: Index)
    ensures Ids(AckFeedback(e, cursor).state) == Ids(e.state)
    ensures Goals(AckFeedback(e, cursor).state) == Goals(e.state)
  {
    var s := AckFeedback(e, cursor).state;
    assert forall i :: 0 <= i < 12 ==> s[i].id == e.state[i].id && s[i].goalPosition == e.state[i].goalPosition;
  }

  lemma FramesOfCycle(got: seq<byte>, sync: seq<byte>, request: seq<byte>)
    ensures Frames([Rx(got), Flush] + [Tx(sync)] + [Tx(request), Flush]) == [sync, request]
  {
    FramesAppend([Rx(got), Flush] + [Tx(sync)], [Tx(request), Flush]);
    FramesAppend([Rx(got), Flush], [Tx(sync)]);
    assert [Flush][1..] == [];
    assert Frames([Flush]) == [];
    assert [Rx(got), Flush][1..] == [Flush];
    assert Frames([Rx(got), Flush]) == [];
    assert [Tx(sync)][1..] == [];
    assert Frames([Tx(sync)]) == [sync];
    assert [Tx(request), Flush][1..] == [Flush];
    assert Frames([Tx(request), Flush]) == [request];
  }

  /** The records polled in `n` cycles that start from `cursor`: the cursor advances before each request. */
  function Polled(cursor: Index, n: nat): (p: seq<Index>)
    ensures |p| == n
  {
    seq(n, k => (cursor + k + 1) % 12)
  }

  /** Twelve consecutive cycles poll every record exactly once. */
  lemma RoundRobinVisitsEach(cursor: Index)
    ensures forall j: Index :: j in Polled(cursor, 12)
    ensures forall a, b :: 0 <= a < b < 12 ==> Polled(cursor, 12)[a] != Polled(cursor, 12)[b]
  {
    var p := Polled(cursor, 12);
    forall k | 0 <= k < 12
      ensures p[k] == if cursor + k + 1 < 12 then cursor + k + 1 else cursor + k - 11
    {
    }
    forall j: Index
      ensures j in p
    {
      var k := if j > cursor then j - cursor - 1 else j - cursor + 11;
      assert p[k] == j;
    }
  }

  /** The frames `n` running cycles put on the wire: a sync write, then a request to the polled servo. */
  function WorkerFrames(sync: seq<byte>, ids: seq<byte>, polled: seq<Index>): (r: seq<seq<byte>>)
    requires |ids| == 12
    ensures |r| == 2 * |polled|
    decreases |polled|
  {
    if |polled| == 0 then []
    else
      var last := |polled| - 1;
      WorkerFrames(sync, ids, polled[..last]) + [sync, FeedbackRequest(ids[polled[last]])]
  }

  /** Frame `2j` is the `j`-th sync write, frame `2j + 1` the request to the `j`-th polled record. */
  lemma {:induction false} WorkerFramesShape(sync: seq<byte>, ids: seq<byte>, polled: seq<Index>, j: nat)
    requires |ids| == 12 && j < |polled|
    ensures WorkerFrames(sync, ids, polled)[2 * j] == sync
    ensures WorkerFrames(sync, ids, polled)[2 * j + 1] == FeedbackRequest(ids[polled[j]])
    decreases |polled|
  {
    var last := |polled| - 1;
    if j < last {
      WorkerFramesShape(sync, ids, polled[..last], j);
      assert polled[..last][j] == polled[j];
    }
  }

  /** The state of the service after `k` of the cycles `RunWorker` performs. */
  ghost predicate Ran(e: Engine, cursor: Index, k: nat, r: Engine, c: Index, polled: seq<Index>)
  {
    && c == Advance(cursor, k)
    && polled == Polled(cursor, k)
    && r.isEnabled && r.isSyncRunning && r.isTorqueEnabled == e.isTorqueEnabled
    && Ids(r.state) == Ids(e.state) && Goals(r.state) == Goals(e.state)
    && Extends(e.port, r.port)
    && Frames(Since(e.port, r.port)) == WorkerFrames(SyncWriteFrame(Ids(e.state), Goals(e.state)), Ids(e.state), polled)
    && r.port.incoming == Drop(e.port.incoming, k)
  }

  /**
   Runs `n` cycles of the service from `cursor` with the service running.
   The cursor advances by `n` modulo 12, goals and addresses are untouched,
   and the wire sees exactly one sync write and one request per cycle, the
   requests going round the records in order.
   */
  method RunWorker(e: Engine, cursor: Index, n: nat) returns (r: Engine, c: Index, polled: seq<Index>)
    requires e.isEnabled && e.isSyncRunning
    ensures c == (cursor + n) % 12
    ensures polled == Polled(cursor, n)
    ensures r.isEnabled && r.isSyncRunning && r.isTorqueEnabled == e.isTorqueEnabled
    ensures Ids(r.state) == Ids(e.state) && Goals(r.state) == Goals(e.state)
    ensures Extends(e.port, r.port)
    ensures Frames(Since(e.port, r.port)) == WorkerFrames(SyncWriteFrame(Ids(e.state), Goals(e.state)), Ids(e.state), polled)
    ensures r.port.incoming == Drop(e.port.incoming, n)
  {
    r, c, polled := e, cursor, [];
    var k := 0;
    assert Since(e.port, r.port) == [];
    assert c == Advance(cursor, 0);
    while k < n
      invariant 0 <= k <= n
      invariant Ran(e, cursor, k, r, c, polled)
    {
      RunStep(e, cursor, k, r, c, polled);
      var (r', c') := Cycle(r, c);
      r, c, polled := r', c', polled + [c'];
      k := k + 1;
    }
  }

  /** One more cycle keeps `Ran` with the cursor advanced and the new record polled. */
  lemma RunStep(e: Engine, cursor: Index, k: nat, r: Engine, c: Index, polled: seq<Index>)
    requires Ran(e, cursor, k, r, c, polled)
    ensures var next := Cycle(r, c); Ran(e, cursor, k + 1, next.0, next.1, polled + [next.1])
  {
    var (r', c') := Cycle(r, c);
    SinceSplit(e.port, r.port, r'.port);
    FramesAppend(Since(e.port, r.port), Since(r.port, r'.port));
    assert r.state[c'].id == Ids(e.state)[c'];
    PolledNext(cursor, k);
    assert c' == Next(c);
    PrefixOfAppend(polled, c');
    DropDrop(e.port.incoming, k);
  }

  /** The cursor after `k` cycles from `cursor`. */
  function Advance(cursor: Index, k: nat): Index
  {
    (cursor + k) % 12
  }

  lemma PolledNext(cursor: Index, k: nat)
    ensures Next(Advance(cursor, k)) == Advance(cursor, k + 1)
    ensures Polled(cursor, k + 1) == Polled(cursor, k) + [Advance(cursor, k + 1)]
  {
    var q := (cursor + k) / 12;
    assert cursor + k == 12 * q + (cursor + k) % 12;
    if (cursor + k) % 12 == 11 {
      assert cursor + k + 1 == 12 * (q + 1);
    } else {
      assert cursor + k + 1 == 12 * q + ((cursor + k) % 12 + 1);
    }
  }

  lemma PrefixOfAppend<T>(s: seq<T>, x: T)
    ensures (s + [x])[..|s|] == s
  {
  }

  /**
   A goal set through the asynchronous API is in the very next sync write,
   in the slot of its record, next to that record's address.
   */
  lemma AsyncGoalReachesWire(e: Engine, id: byte, position: u16, cursor: Index)
    requires e.isEnabled && AsyncApi.HasRecord(id)
    ensures var e1 := AsyncApi.SetPositionAsync(e, id, position);
      var f := Frames(Since(e1.port, Cycle(e1, cursor).0.port))[0];
      && f[7 + 3 * (id - 1)] == e.state[id - 1].id
      && Word(f[8 + 3 * (id - 1)], f[9 + 3 * (id - 1)]) == position
  {
    var e1 := AsyncApi.SetPositionAsync(e, id, position);
    assert e1.isEnabled && e1.isSyncRunning;
    assert Goals(e1.state)[id - 1] == position;
  }

  /**
   Feedback from the polled servo reaches the asynchronous getters: after a
   cycle that reads a valid reply from servo `k + 1`, the getters return the
   words it carried, as stored.
   */
  lemma FeedbackReachesGetters(e: Engine, k: Index, position: u16, velocity: u16, load: u16)
    requires e.isEnabled && e.isSyncRunning && e.state[k].id == k + 1
    requires Pending(e.port) == Encode(k + 1, 0, [Hi(position), Lo(position), Hi(velocity), Lo(velocity), Hi(load), Lo(load)])
    ensures var after := Cycle(e, k).0;
      && AsyncApi.GetPositionAsync(after, k + 1).1 == position
      && AsyncApi.GetVelocityAsync(after, k + 1).1 == ToS16(velocity)
      && AsyncApi.GetLoadAsync(after, k + 1).1 == ToS16(load)
  {
    var params := [Hi(position), Lo(position), Hi(velocity), Lo(velocity), Hi(load), Lo(load)];
    var got := Pending(e.port);
    DecodeEncode(k + 1, 0, params);
    assert Take(got, 12) == got;
    assert got[5..11] == params;
    WordOfBytes(position);
    WordOfBytes(velocity);
    WordOfBytes(load);
    var s := AckFeedback(e, k).state[k];
    assert s.presentPosition == position;
    assert s.presentVelocity == ToS16(velocity);
    assert s.presentLoad == ToS16(load);
  }
}
